=== FILE: README.md ===
# RPGmania rhythm game core, modelled in Dafny

`GH_RPGmania.js` is an RPG Maker MV plugin that adds a four-lane rhythm game
to the engine. It reads StepMania `.sm` charts and scrolls notes up towards
a receptor line. It judges key presses against the song clock, keeps a
score, a combo and per-rank counts, and shows a result screen.

This project models the logic of that core as pure Dafny functions:

- `JsStrings`: the JavaScript string built-ins the parser uses. These are
  `indexOf`, `substring`, `split`, `trim`, `replaceAll`, `split(/\r?\n/)`
  and `startsWith("//")`.
- `ChartParser`: `parseChart` and `parseNotes`. A chart becomes header
  fields plus, per difficulty, measures of rows of lane symbols.
- `Timeline`: the song-fraction time of a row and the dancer's beat list
  (`setupDanceInfo`).
- `Playfield`: the note pool, the hold bars, the score tally, and the
  conservation invariant. Every spawned note is either still on the
  playfield or counted in exactly one rank.
- `Spawner`: the pool manager's spawn loop. It keeps the notes up to five
  measures ahead, and a `'3'` closes the lane's open hold.
- `Judge`: `NOTETIMINGS`, `validateNote`, the pressed bitmap and its edges,
  and `updateHeldNotes`.
- `Misses`: the timeout miss, the cull of notes scrolled below the screen,
  hold-bar release, and the dancer step.
- `Frame`: one frame of the play phase. The player sprite's `updateInput`
  runs first, then the pool manager's `update`.
- `Hud`: which combo digit sprites `drawComboDigits` shows, and the frame
  `setRankText` picks.
- `Session`: `create` and the phase machine (`update_phase`, the start, play
  and end phases).

The song clock, the loaded charts, the keys and the screen height are
parameters of each frame (`Frame.PlayFrame`, `Session.Env`). Which hold bars
the presentation drops is one too: it is the set `offscreen`.

## Model

| member | source | states |
|---|---|---|
| JsStrings.IndexOf | GH_RPGmania.js:166-168 | `indexOf` gives -1 exactly when the character is absent; otherwise the first position holding it |
| JsStrings.Substring | GH_RPGmania.js:170-171 | `substring` clamps both ends into the string and swaps them when reversed; the length is the clamped distance |
| JsStrings.SubstringSymmetric | GH_RPGmania.js:170-171 | swapping the two bounds of `substring` gives the same string |
| JsStrings.Split | GH_RPGmania.js:163 | `split` gives one more part than separators, no part holds the separator, and joining the parts gives back the input |
| JsStrings.SplitJoin | GH_RPGmania.js:163 | splitting a join of separator-free parts gives back the parts |
| JsStrings.Trim | GH_RPGmania.js:193 | `trim` gives a string that starts and ends with a non-space |
| JsStrings.TrimExactly | GH_RPGmania.js:193 | trimming leading and trailing white space around a string gives back that string |
| JsStrings.TrimIdempotent | GH_RPGmania.js:193 | trimming twice is trimming once |
| JsStrings.RemovePair | GH_RPGmania.js:193 | `replaceAll` of a two-character pair never lengthens the string and never adds a character |
| JsStrings.RemovePairUnchanged | GH_RPGmania.js:193 | `replaceAll` of a two-character pair leaves the string unchanged exactly when the pair does not occur |
| JsStrings.RemovePairFirst | GH_RPGmania.js:193 | when no occurrence starts before it, the first occurrence of the pair is deleted in place and the scan goes on after it |
| JsStrings.RemovePairOnce | GH_RPGmania.js:193 | when the only `a` of the text starts an occurrence of the pair `ab`, `replaceAll` deletes exactly that occurrence |
| JsStrings.RemovePairKeeps | GH_RPGmania.js:193 | in otherwise `a`-free text, an `a` followed by a character that is neither `a` nor `b` is kept |
| JsStrings.SplitLines | GH_RPGmania.js:211 | splitting on `\r?\n` gives one more row than newlines, none containing a newline |
| JsStrings.SplitLinesJoin | GH_RPGmania.js:211 | the rows joined by newlines are the input with every CR LF turned into LF |
| ChartParser.CleanUp | GH_RPGmania.js:193 | the cleaned NOTES body is never longer than the input, and is just the trimmed text when it has no backslash |
| ChartParser.CleanUpDropsEscape | GH_RPGmania.js:193 | a backslash-n or backslash-r between two trimmed pieces without other backslashes is deleted, joining the pieces |
| ChartParser.DropComments | GH_RPGmania.js:211 | a row survives exactly when it was a row of the measure and does not start with `//` |
| ChartParser.DropCommentsAppend | GH_RPGmania.js:211 | filtering comments distributes over concatenation of row lists |
| ChartParser.Rows | GH_RPGmania.js:211 | a row is in a measure exactly when it is a line of the trimmed measure text and is not a comment; no row holds a newline |
| ChartParser.RowsWithout | GH_RPGmania.js:211 | a character absent from a measure's text is absent from each row trimming and line splitting cut from it |
| ChartParser.Measures | GH_RPGmania.js:203-211 | the body gives one measure per comma plus one; a row is in measure `m` exactly when it is a non-comment line of the trimmed `m`-th comma-separated piece; no row holds a comma or newline |
| ChartParser.ParseNotes | GH_RPGmania.js:187-213 | a NOTES section has no chart exactly when it has fewer than six colon-separated fields; a chart has at least one measure |
| ChartParser.ParseNotesFields | GH_RPGmania.js:195-201 | a NOTES section reads its six fields in order; fields after the sixth are ignored |
| ChartParser.ReadSection | GH_RPGmania.js:166-173 | a line without a `;` after position 0 is skipped; otherwise the key ends at the first `:` and the content runs from after the `:` up to the `;`; a missing or late `:` gives the substring the clamping rules produce |
| ChartParser.ParseSections | GH_RPGmania.js:165-181 | every chart the section loop builds keeps every NOTES entry keyed by its own difficulty, single style, with at least one measure |
| ChartParser.ApplySectionFiles | GH_RPGmania.js:174-179 | one section keeps every NOTES entry filed under its own difficulty, with at least one measure |
| ChartParser.ApplySectionField | GH_RPGmania.js:166-174 | one chunk sets header field `k` exactly when it is a metadata section keyed `k`, to its content |
| ChartParser.ApplySectionChart | GH_RPGmania.js:175-180 | one chunk files a chart under difficulty `d` exactly when it is a single-style NOTES section naming `d` |
| ChartParser.SectionsFail | GH_RPGmania.js:165-181 | the section loop fails exactly when some line is a NOTES section with fewer than six fields |
| ChartParser.SectionsFields | GH_RPGmania.js:165-173 | after the section loop a header field holds the last section with that key, or what it held before |
| ChartParser.SectionsNotes | GH_RPGmania.js:174-179 | after the section loop a difficulty holds the chart of the last single-style NOTES section naming it, or what it held before |
| ChartParser.ParseChart | GH_RPGmania.js:162-184 | a parsed chart has every NOTES entry under its difficulty, single style, with at least one measure |
| ChartParser.ParseChartThrows | GH_RPGmania.js:175-192 | `parseChart` throws exactly when some NOTES section has fewer than six fields |
| ChartParser.ParseChartFields | GH_RPGmania.js:164-173 | a header field holds the content of the last section with that key, or the default when there is none |
| ChartParser.ParseChartNotes | GH_RPGmania.js:174-179 | a difficulty maps to the chart of the last single-style NOTES section naming it; other styles are dropped |
| Timeline.RowTime | GH_RPGmania.js:1091 | row `i` of `n` in measure `m` of `count` lies in `[m/count, (m+1)/count)`, and the first row is the measure's start |
| Timeline.RowTimeIncreasing | GH_RPGmania.js:1091 | later rows of a measure come strictly later |
| Timeline.Ceil | GH_RPGmania.js:1085 | `Math.ceil(x)` is the least integer not below `x` |
| Timeline.BeatsBeforeOrdered | GH_RPGmania.js:775-786 | the beats of the first `m` measures are one per row, strictly increasing, and within their measure's span |
| Timeline.SetupDanceInfo | GH_RPGmania.js:775-786 | the loop builds one beat per row of the chart, strictly increasing, all in `[0, 1)` |
| Playfield.Bump | GH_RPGmania.js:1139 | bumping one rank count adds to that count and to the total and leaves the other counts, score and combos alone |
| Playfield.NewInv | GH_RPGmania.js:306-311 | a fresh tally and an empty pool satisfy the conservation invariant for any non-empty chart |
| Spawner.SpawnSymbol | GH_RPGmania.js:1096-1119 | a `'3'` fails exactly when the lane has no open hold; `'1'` and `'2'` append one note on the lane at the row's time, and only `'2'` links it to a new hold bar, which becomes the lane's last hold; `'3'` sets that hold's tail and leaves its other fields and all other bars alone; symbols other than `'2'` leave `_held` and the last holds alone, and symbols other than `'2'` and `'3'` leave the bars alone |
| Spawner.SpawnSymbolContents | GH_RPGmania.js:1096-1119 | one symbol appends exactly its reference spawn: lane, time, and whether it starts a hold |
| Spawner.SpawnLanesContents | GH_RPGmania.js:1094-1120 | a row's lanes append exactly the reference spawns of its `'1'` and `'2'` symbols, in lane order |
| Spawner.SpawnLanes | GH_RPGmania.js:1094-1120 | the lanes of a four-wide row fail exactly when the reference reading, starting from the lanes with a last hold, meets a `'3'` on a lane without one; otherwise the lanes with a last hold are those the reference leaves open, the pending notes grow by the note symbols read, and time order is kept |
| Spawner.SpawnRow | GH_RPGmania.js:1092-1121 | a row not four wide changes nothing; a four-wide row fails exactly when it holds a `'3'` on a lane with no hold opened before it (counting `'2'`s earlier in the row), and otherwise succeeds, leaves open the lanes the reference does, grows the pending notes by the row's note symbols and keeps time order |
| Spawner.SpawnRowContents | GH_RPGmania.js:1092-1121 | one row appends exactly its reference spawns, none when it is not four wide |
| Spawner.SpawnMeasure | GH_RPGmania.js:1086-1122 | one measure fails exactly when its four-wide rows, read in order, hold an orphan `'3'`; otherwise it succeeds, advances the cursor by one, leaves open the lanes the reference does, adds its notes, and keeps time order and the lookahead bound |
| Spawner.SpawnRows | GH_RPGmania.js:1087-1121 | the rows of a measure fail exactly when, read in order, one holds an orphan `'3'`; otherwise they succeed, leave open the lanes the reference does, add exactly their note symbols to the pending notes, and keep the old notes and the cursor |
| Spawner.SpawnRowsContents | GH_RPGmania.js:1087-1121 | the rows of a measure append exactly their reference spawns, each at its row's time, in order |
| Spawner.SpawnMeasureContents | GH_RPGmania.js:1086-1122 | one measure appends exactly its reference spawns |
| Spawner.SpawnRowsOrder | GH_RPGmania.js:1087-1121 | rows spawned in order keep the playfield in time order, no note later than the measure's last row |
| Spawner.MeasureOrder | GH_RPGmania.js:1086-1122 | a spawned measure keeps the playfield in time order and every note before the next measure to spawn |
| Spawner.SpawnUpToNotes | GH_RPGmania.js:1085-1123 | spawning keeps the old notes and adds exactly the notes of the measures between the old and new cursor |
| Spawner.SpawnUpToOrder | GH_RPGmania.js:1085-1123 | spawning keeps the playfield in time order and every note before the next measure to spawn |
| Spawner.SpawnUpTo | GH_RPGmania.js:1085-1123 | without a failure the loop stops exactly at the bound or the measure count, whichever comes first, or where it started when the bound is not past the cursor |
| Spawner.Reach | GH_RPGmania.js:1085 | where the loop stops lies between the cursor and the measure count, at the count or past the bound, and not past the bound unless it never moved |
| Spawner.SpawnUpToOpen | GH_RPGmania.js:1085-1123 | the loop fails exactly when the measures up to where it would stop hold an orphan `'3'`, and otherwise leaves open the lanes the reference does |
| Spawner.SpawnUpToContents | GH_RPGmania.js:1085-1123 | the loop appends exactly the reference spawns of the measures between the old and the new cursor, in order |
| Spawner.SpawnAhead | GH_RPGmania.js:1085-1123 | the loop fails exactly when the measures it reads (from the cursor up to `ceil(curMes + 5)` or the chart's end) hold a `'3'` on a lane with no hold opened before it; otherwise it stops exactly there, never moves the cursor back; it keeps the old notes and appends exactly the reference spawns (lane, time, hold head) of the measures it read, in order; the playfield stays in time order |
| Spawner.SpawnAheadReach | GH_RPGmania.js:1085 | the loop succeeds exactly when the measures it reads hold no orphan `'3'`, and then stops at the chart's end or once the cursor reaches `curMes + 5`, never spawning a measure starting past that |
| Judge.PressedBits | GH_RPGmania.js:942-948 | bit `i` of the pressed bitmap is set exactly when key `i` is pressed |
| Judge.Edges | GH_RPGmania.js:950-953 | a lane is in the new-press bitmap exactly when it is pressed now and was not pressed the previous frame |
| Judge.HeldKeysGiveNoEdges | GH_RPGmania.js:951 | keys held from the previous frame produce no new presses |
| Judge.ClearBit | GH_RPGmania.js:1215 | clearing a lane's bit removes that lane and keeps the others |
| Judge.RankOf | GH_RPGmania.js:1187-1193 | the rank is decided by the timing against the Bad, Good, Great and Perfect windows, each tier exactly on its interval |
| Judge.RankMonotone | GH_RPGmania.js:1229-1262 | a more accurate press never ranks lower |
| Judge.ScanDistinct | GH_RPGmania.js:1213-1215 | one press judges at most one note per lane |
| Judge.ScanPending | GH_RPGmania.js:1219-1222 | every judged note leaves the playfield, so the pending count drops by the number of hits |
| Judge.ScanSorted | GH_RPGmania.js:1219-1220 | removing judged notes keeps the playfield in time order |
| Judge.ScanEarlyExitIsSafe | GH_RPGmania.js:1207-1209 | on a time-ordered playfield, stopping at the first note more than the Miss window away judges the same notes as scanning them all |
| Judge.ScanAllNothingInReach | GH_RPGmania.js:1207-1209 | when every note is more than the Miss window ahead, no note is judged |
| Judge.FrontNoteJudged | GH_RPGmania.js:1202-1226 | the front note, not missed, within the Miss window and on a pressed lane, is judged with the rank of its timing |
| Judge.ZeroTimeNoteNeverJudged | GH_RPGmania.js:1202 | the guard as written skips a note at song time 0 even when pressed exactly on time |
| Judge.Credit | GH_RPGmania.js:1229-1266 | one hit adds one to its own rank's count and nothing to the others, adds its rank's points, extends the combo (a Miss resets it) and raises the highest combo to it |
| Judge.CreditAll | GH_RPGmania.js:1229-1266 | each rank's count grows by exactly the number of hits of that rank, the Miss count is unchanged, the score grows by the hits' points, the combo by one per hit, and the highest combo is the maximum |
| Judge.MarkHeld | GH_RPGmania.js:1216-1218 | a bar is held down afterwards exactly when it was already held down or some hit's note starts it; every bar keeps its lane, time and tail |
| Judge.ScanKept | GH_RPGmania.js:1202-1222 | every note the scan keeps was on the playfield |
| Judge.ValidateNote | GH_RPGmania.js:1195-1270 | hits come from the playfield on pressed lanes within the Miss window, ranked Bad to Perfect; each Bad..Perfect count grows by exactly the number of hits of that rank (a hit's rank is its timing's tier) and the Miss count is unchanged; score and combos grow by the hits; no press changes nothing; this holds for either loop guard |
| Judge.ValidateNoteRemovesHits | GH_RPGmania.js:1202-1222 | hits are on distinct lanes; the playfield before is, as a multiset, the playfield after plus the hit notes; the rest keep their time order; a bar is held down exactly when it was or a hit starts it |
| Judge.ScanSplits | GH_RPGmania.js:1202-1222 | the scan splits its notes, as a multiset, into those kept and those judged |
| Judge.ScanAllTakesFirst | GH_RPGmania.js:1202-1215 | on a pressed lane, the first note within the Miss window that the guard considers is judged |
| Judge.ValidateNoteTakesFirst | GH_RPGmania.js:1195-1222 | on a time-ordered playfield, each pressed lane's first note within the Miss window that the guard considers is judged |
| Judge.LanesCount | GH_RPGmania.js:1213-1215 | hits on distinct lanes number as many as their lanes |
| Judge.HitsAtMostLanes | GH_RPGmania.js:1213-1215 | one press judges at most four notes, and none without a pressed lane |
| Judge.KeepHeld | GH_RPGmania.js:1284-1291 | a held bar is kept exactly when it is not held down or its lane is still pressed |
| Judge.UpdateHeldNotes | GH_RPGmania.js:1280-1294 | released bars leave `_held`, every bar held down on a pressed lane earns 10 points, and nothing else changes |
| Judge.SustainPoints | GH_RPGmania.js:1284-1291 | the sustained bars are exactly the held-down bars that remain in `_held` |
| Misses.MarkMissed | GH_RPGmania.js:1127-1142 | every timed-out note becomes missed and nothing else changes; no note stays timed out |
| Misses.TimeoutMisses | GH_RPGmania.js:1136-1141 | each note more than the Miss window late, unplayed and unmissed, adds one Miss and breaks the combo |
| Misses.TimeoutIdempotent | GH_RPGmania.js:1136-1141 | a second timeout pass at the same song position changes nothing |
| Misses.MissedNeverTimesOut | GH_RPGmania.js:1136 | a missed note is never counted again by the timeout |
| Misses.PastBottomIff | GH_RPGmania.js:1129-1166 | a note is below the screen's cull line exactly when it is more than 1/400 of the song behind, whatever the screen height |
| Misses.CullPastBottom | GH_RPGmania.js:1165-1177 | the cull keeps a suffix of the playfield; each dropped unmissed note adds one Miss and breaks the combo, and nothing else is counted |
| Misses.CullDropsLeading | GH_RPGmania.js:1166-1177 | the cull drops exactly the run of notes below the screen at the front |
| Misses.CullDropsBelow | GH_RPGmania.js:1166-1177 | every dropped note was below the screen |
| Misses.CullFrontOnScreen | GH_RPGmania.js:1166 | the loop stops at a note that is on the screen, or an empty playfield |
| Misses.CullLeavesNothingBelow | GH_RPGmania.js:1165-1177 | on a time-ordered playfield no note left after the cull is below the screen |
| Misses.ReleaseHolds | GH_RPGmania.js:1144-1163 | a bar stays in `_held` exactly when it was there and is not dropped |
| Misses.DancerStep | GH_RPGmania.js:1179-1183 | the front beat is consumed exactly when the song is past it, and at most one beat per frame |
| Frame.PlayerInput | GH_RPGmania.js:942-957 | input crashes exactly when a key is pressed before the song buffer exists; the previous bitmap becomes the pressed one; the score never drops; no key judges nothing |
| Frame.HeldKeysJudgeNothing | GH_RPGmania.js:950-953 | holding the same keys as last frame judges no note and leaves counts and combo as they were |
| Frame.ValidateKeepsInv | GH_RPGmania.js:1195-1270 | judging keeps the conservation invariant and the playfield's order and links |
| Frame.PlayerInputKeepsInv | GH_RPGmania.js:942-957 | the input step keeps the play-time invariant |
| Frame.PoolUpdate | GH_RPGmania.js:1057-1184 | no clock changes nothing; with a clock it fails exactly when the measures the spawn loop reads hold a `'3'` on a lane with no hold opened before it, and that is its only failure; the song ends exactly when the clock reaches its length; the score and the Bad-to-Perfect counts stay; Misses never drop; the play-time invariant is kept |
| Frame.TimeoutKeepsInv | GH_RPGmania.js:1136-1141 | the timeout pass keeps the conservation invariant |
| Frame.CullKeepsInv | GH_RPGmania.js:1165-1177 | the cull keeps the conservation invariant |
| Frame.SpawnKeepsInv | GH_RPGmania.js:1085-1123 | spawning keeps the conservation invariant |
| Frame.Settle | GH_RPGmania.js:1127-1177 | the timeout, hold release and cull keep the links, the score and the Bad-to-Perfect counts; Misses never drop |
| Frame.SettleKeepsInv | GH_RPGmania.js:1127-1177 | the timeout, hold release and cull keep the play-time invariant |
| Frame.MissStepKeepsInv | GH_RPGmania.js:1127-1163 | the timeout and hold release keep the conservation invariant |
| Frame.PlayFrame | GH_RPGmania.js:915-957 | a play-phase frame runs the player's input and then the pool manager's update (GH_RPGmania.js:1057-1184), in the order the scene's update runs its children before `update_phase` (GH_RPGmania.js:699-703); it keeps the play-time invariant, never moves the spawn cursor back, and records the pressed keys |
| Frame.DancerStepOrdered | GH_RPGmania.js:1179-1183 | the dancer's remaining beats stay strictly increasing, and a consumed beat was before the rest |
| Hud.DecimalLength | GH_RPGmania.js:657 | the decimal string of `n` is longer than `i` exactly when `n` reaches `10^i` |
| Hud.ComboDigits | GH_RPGmania.js:656-674 | there are four digit slots, all hidden when the combo is not positive |
| Hud.ComboDigitsArithmetic | GH_RPGmania.js:661-672 | for a positive combo, slot `i` is shown exactly when the combo reaches `10^i`, and it shows the `i`-th lowest decimal digit |
| Hud.ComboDigitsSpellValue | GH_RPGmania.js:656-674 | the shown digits spell the combo modulo 10000 |
| Hud.RankFrame | GH_RPGmania.js:1272-1278 | rank `k` sits in column `k % 2` of row `k / 2 + 1`, so the frame gives back the rank |
| Hud.RankFramesDistinct | GH_RPGmania.js:1272-1278 | different ranks use different frames; ranks 0 to 4 never show the word "combo"'s frame, which rank 5 would reuse |
| Session.CodesDistinct | GH_RPGmania.js:705-717 | the phase and phase-state pair identifies the stage |
| Session.Create | GH_RPGmania.js:299-328 | without plugin data, or with the song-list flag, the scene waits on the list; otherwise it records the song and difficulty and requests the chart |
| Session.UpdatePhase | GH_RPGmania.js:705-749 | the phase machine fails exactly when the chart has arrived after the wait without the difficulty; each step moves at most one stage forward and keeps the scene invariant |
| Session.AfterPlay | GH_RPGmania.js:1074-1076 | the scene leaves the play phase for the result screen exactly when the frame ends the song |
| Session.AfterPlayPhase | GH_RPGmania.js:805-812 | in the same frame the phase machine leaves a playing scene alone and moves the result screen to waiting for confirmation |
| Session.Step | GH_RPGmania.js:699-717 | a frame never moves the scene backwards; it can fail only while loading or playing; a play frame waits for confirmation exactly when the clock has reached the song's length, and otherwise keeps playing; after the play phase the counters are frozen |
| Session.Run | GH_RPGmania.js:699-717 | a run of frames keeps the scene invariant and never moves backwards |
| Session.TallyFrozenAfterPlay | GH_RPGmania.js:805-848 | once the song has ended, no later frame changes the counters |
| Session.LoadTakesFrames | GH_RPGmania.js:724-741 | from the chart request it takes at least 62 frames to reach the music |
| Session.LoadCompletes | GH_RPGmania.js:730-741 | with the chart and difficulty present, the frame after the timer reaches 60 takes the chart with a fresh tally |
| Session.ConfirmLeaves | GH_RPGmania.js:834-847 | the result screen stays until confirmation, then the scene leaves and is popped the next frame |
| Session.SongListWaits | GH_RPGmania.js:720-723 | a scene opened on the song list never leaves that stage |

## Left out

- I/O is not modelled. That covers the chart download (`loadChart`, XHR), audio playback, fades, bitmaps, sprites and windows (`Window_SongList`, `Window_DifficultySelect`). The song clock and the loaded charts are frame parameters instead.
- The result-screen drawing (`bltComboDigits`, the end-phase text layout) and the rank text's fade timer (`updateRankText`) are presentation and are not modelled.
- Hold-bar geometry (tiling height, when a bar scrolls past its tail) is not modelled. The pool manager's hold cull is a parameter: the set of bar ids it drops.
- `OFFSET` is read in the source but never used, so it is not modelled.
- Times are Dafny reals, not IEEE doubles; rounding is not modelled.
- Notes are fresh records rather than recycled sprites, and every spawned note starts unplayed and unmissed. In the source a hit sprite is cleaned (line 1220) and then marked played (line 1226) before `spawn` reuses it without a reset, so a note respawned from it never times out at line 1136; its Miss and combo break come only at the cull (line 1166), which is later, so the highest combo can come out higher than the model's.
- `rankings` has five slots, one per rank. The source allocates six, and the sixth is never written during play.
- JavaScript object-key quirks (`__proto__` and similar chart keys) are ignored: header fields and difficulties are plain maps.
- `ClockOk` requires a song length above zero. A zero-length song buffer (division by zero in the source) is not modelled.
- `Misses.ReleaseHolds` removes every occurrence of a dropped id, where `releaseHeld` splices the first. The ids in `_held` are distinct, so both agree.
- In the source, `parseChart` throws when a NOTES section has fewer than six fields: `parseNotes` returns `undefined`, and reading its `chartType` on line 177 throws, so line 178 is never reached. The model returns `Failure(NotesUndefined)` for this.
- Strings are sequences of Unicode scalar values. JavaScript strings are sequences of UTF-16 code units, so a character outside the Basic Multilingual Plane counts as two there. This affects `indexOf`, `substring`, `split` and the four-wide row check `beat.length == 4` (line 1092). Charts are ASCII, where the two agree.
- `Spawner.SpawnAhead`: states each appended note's lane, time and whether it starts a hold, but not which hold id it links. `Spawner.SpawnSymbol` states the id, which is the next free bar. On failure it states when the loop fails but not which lane the error names; `Spawner.SpawnSymbol` states that too.
- `Frame.PoolUpdate`: does not state how many notes it spawns. That is `Spawner.SpawnAhead`'s contract.
- `Session.Step`: does not state the tally after a play frame directly. It is given by `Frame.PlayFrame` and `Frame.PoolUpdate`.

## Findings

| source | as written | input that shows it | evidently intended | confidence | as-written member | corrected member |
|---|---|---|---|---|---|---|
| GH_RPGmania.js:1202 | `if(note.time && !note.missed)` treats a note at song time 0 as falsy and skips it | a `'1'` on the first row of measure 0 (time 0.0), left lane pressed at clock 0.0 of a 60-second song: the press judges nothing, and the note can only time out as a Miss | every unmissed note within the Miss window can be hit, including one at time 0 | medium, not executed | Judge.ZeroTimeNoteNeverJudged | Judge.FrontNoteJudged |

The guard is a parameter `g`, threaded through `Judge.Scan`, `Judge.ValidateNote`, `Frame.PlayerInput`, `Frame.PlayFrame`, `Session.Step` and `Session.Run`. `TruthyTime` is the code as written and `AnyTime` the corrected guard. Every contract of these members holds for both guards. `Judge.ZeroTimeNoteNeverJudged` shows the difference under `TruthyTime`, and `Judge.FrontNoteJudged` proves the intended property under `AnyTime`.

=== FILE: chart_parser.dfy ===
/**
 * The StepMania `.sm` chart reader: `parseChart` splits the raw text at `#`
 * into sections of the form `KEY:VALUE;`, stores every value except `NOTES`
 * verbatim, and hands `NOTES` values to `parseNotes`, which cuts them at `:`
 * into five metadata fields and a note body of comma-separated measures.
 */
module ChartParser {
  import opened Results
  import opened JsStrings

  /**
   * A metadata value of the chart object. The two defaults are a name and the
   * number 0; every value read from the file is text, stored as found.
   */
  datatype Value = Text(text: string) | Number(n: int)

  /** The rows of one measure, each a string with one symbol per lane. */
  type Measure = seq<string>

  /** The object `parseNotes` returns for one `NOTES` section. */
  datatype NoteChart = NoteChart(
    chartType: string,
    description: string,
    difficulty: string,
    meter: string,
    grooveRadar: string,
    data: seq<Measure>)

  /** The object `parseChart` returns: metadata fields plus the kept note charts by difficulty. */
  datatype Chart = Chart(fields: map<string, Value>, notes: map<string, NoteChart>)

  /**
   * `parseChart` reads `notes.chartType` off the result of `parseNotes`
   * without checking it; when `parseNotes` returned `undefined` this throws a
   * TypeError, which ends the whole parse.
   */
  datatype ParseError = NotesUndefined

  const NOTES_KEY := "NOTES"
  const SINGLE_STYLE := "dance-single"

  /** The chart object before any section is read. */
  function Defaults(name: string): Chart
  {
    Chart(map["CHARTNAME" := Text(name), "OFFSET" := Number(0)], map[])
  }

  function Get<K, V>(m: map<K, V>, k: K): Option<V>
  {
    if k in m then Some(m[k]) else None
  }

  /**
   * `cleanUp` of `parseNotes`: trims, then deletes the two-character literals
   * backslash-n and backslash-r (not line breaks). On text without a
   * backslash it is just `trim`.
   */
  function CleanUp(d: string): (r: string)
    ensures |r| <= |d|
    ensures '\\' !in d ==> r == Trim(d)
  {
    var t := Trim(d);
    var r := RemovePair(RemovePair(t, '\\', 'n'), '\\', 'r');
    if '\\' !in d then
      assert '\\' !in t by {
        TrimChars(d);
      }
      assert !HasPair(t, '\\', 'n');
      assert !HasPair(t, '\\', 'r');
      RemovePairUnchanged(t, '\\', 'n');
      RemovePairUnchanged(t, '\\', 'r');
      r
    else r
  }

  /**
   * `cleanUp` deletes a backslash-n or backslash-r escape sitting between two
   * pieces of text that hold no other backslash, joining the pieces.
   */
  lemma CleanUpDropsEscape(x: string, y: string, e: char)
    requires e == 'n' || e == 'r'
    requires '\\' !in x && '\\' !in y
    requires |x| > 0 && !IsJsSpace(x[0]) && |y| > 0 && !IsJsSpace(y[|y| - 1])
    ensures CleanUp(x + ['\\', e] + y) == x + y
  {
    var d := x + ['\\', e] + y;
    assert [] + d + [] == d;
    TrimExactly([], d, []);
    var u := RemovePair(d, '\\', 'n');
    assert CleanUp(d) == RemovePair(u, '\\', 'r');
    if e == 'n' {
      RemovePairOnce(x, y, '\\', 'n');
      assert '\\' !in u;
      NoPairWithout(u, '\\', 'r');
      RemovePairUnchanged(u, '\\', 'r');
    } else {
      RemovePairKeeps(x, y, '\\', 'n', 'r');
      RemovePairOnce(x, y, '\\', 'r');
    }
  }

  /** `rows.filter(x => !x.startsWith("//"))`. */
  function DropComments(rows: seq<string>): (r: seq<string>)
    ensures |r| <= |rows|
    ensures forall x :: x in r <==> x in rows && !IsComment(x)
  {
    if |rows| == 0 then []
    else
      var rest := DropComments(rows[1..]);
      assert rows == [rows[0]] + rows[1..];
      if IsComment(rows[0]) then rest else [rows[0]] + rest
  }

  /** Filtering keeps the order of the rows it keeps. */
  lemma {:induction false} DropCommentsAppend(a: seq<string>, b: seq<string>)
    ensures DropComments(a + b) == DropComments(a) + DropComments(b)
    decreases |a|
  {
    if |a| == 0 {
      assert a + b == b;
    } else {
      assert (a + b)[1..] == a[1..] + b;
      DropCommentsAppend(a[1..], b);
    }
  }

  /** One measure: trimmed, split at `\r?\n`, comment rows dropped. */
  function Rows(measure: string): (rows: Measure)
    ensures forall x :: x in rows ==> '\n' !in x && !IsComment(x)
    ensures forall x :: x in rows <==> x in SplitLines(Trim(measure)) && !IsComment(x)
  {
    DropComments(SplitLines(Trim(measure)))
  }

  /** The note body: one measure per comma-separated piece. */
  function Measures(body: string): (ms: seq<Measure>)
    ensures |ms| == Count(body, ',') + 1
    ensures forall m, x :: 0 <= m < |ms| && x in ms[m] ==> ',' !in x && '\n' !in x && !IsComment(x)
    ensures forall m, x :: 0 <= m < |ms| ==>
              (x in ms[m] <==> x in SplitLines(Trim(Split(body, ',')[m])) && !IsComment(x))
  {
    var parts := Split(body, ',');
    var ms := seq(|parts|, m requires 0 <= m < |parts| => Rows(parts[m]));
    forall m | 0 <= m < |ms|
      ensures forall x :: x in ms[m] ==> ',' !in x
      ensures forall x :: x in ms[m] <==> x in SplitLines(Trim(parts[m])) && !IsComment(x)
    {
      assert ms[m] == Rows(parts[m]);
      RowsWithout(parts[m], ',');
    }
    ms
  }

  /** A character absent from a measure's text is absent from each of its rows. */
  lemma RowsWithout(measure: string, c: char)
    requires c !in measure
    ensures forall x :: x in Rows(measure) ==> c !in x
  {
    TrimChars(measure);
    SplitLinesSubset(Trim(measure), c);
  }

  /** A character absent from `s` is absent from every row `SplitLines` cuts from it. */
  lemma {:induction false} SplitLinesSubset(s: string, c: char)
    requires c !in s
    ensures forall x :: x in SplitLines(s) ==> c !in x
    decreases |s|
  {
    var k := IndexOf(s, '\n');
    if k != -1 {
      var head, tail := s[..k], s[k + 1..];
      assert c !in tail by {
        SliceChars(s, k + 1, |s|);
      }
      SplitLinesSubset(tail, c);
      assert c !in DropCR(head) by {
        SliceChars(s, 0, k);
        SliceChars(head, 0, |DropCR(head)|);
      }
      assert SplitLines(s) == [DropCR(head)] + SplitLines(tail);
    }
  }

  /** The note chart built from the six fields of a `NOTES` value. */
  function FromFields(f: seq<string>): NoteChart
    requires |f| >= 6
  {
    NoteChart(CleanUp(f[0]), CleanUp(f[1]), CleanUp(f[2]), CleanUp(f[3]), CleanUp(f[4]), Measures(f[5]))
  }

  /**
   * `parseNotes(rawContent)`: `undefined` when the value has fewer than six
   * `:`-separated fields, i.e. fewer than five colons; otherwise fields 0-4
   * cleaned up as metadata and field 5 as the note body. The body always
   * yields at least one measure.
   */
  function ParseNotes(raw: string): (r: Option<NoteChart>)
    ensures r.None? <==> Count(raw, ':') < 5
    ensures r.Some? ==> |r.value.data| >= 1
  {
    var f := Split(raw, ':');
    if |f| < 6 then None else Some(FromFields(f))
  }

  /**
   * Reading back a `NOTES` value assembled from six or more colon-free fields
   * yields exactly the note chart of its first six fields: later fields are
   * ignored.
   */
  lemma ParseNotesFields(f: seq<string>)
    requires |f| >= 6
    requires forall i :: 0 <= i < |f| ==> ':' !in f[i]
    ensures ParseNotes(Join(f, ':')) == Some(FromFields(f))
    ensures ParseNotes(Join(f, ':')) == ParseNotes(Join(f[..6], ':'))
  {
    var g := f[..6];
    assert forall i :: 0 <= i < |g| ==> ':' !in g[i];
    SplitJoin(f, ':');
    SplitJoin(g, ':');
    assert FromFields(g) == FromFields(f);
  }

  /** How `parseChart` reads one `#`-separated chunk. */
  datatype Section = Skipped | Meta(key: string, content: string) | NotesBody(content: string)

  function KeyOf(s: Section): string
  {
    match s
    case Skipped => ""
    case Meta(k, _) => k
    case NotesBody(_) => NOTES_KEY
  }

  function ContentOf(s: Section): string
  {
    match s
    case Skipped => ""
    case Meta(_, v) => v
    case NotesBody(v) => v
  }

  /**
   * One chunk: skipped when its first `;` is missing or at index 0; otherwise
   * the key is the untrimmed text before the first `:` and the content runs
   * from after that `:` to the first `;`. With no `:` the key is empty and the
   * content is everything before the `;`; with the `:` after the `;`,
   * `substring` swaps its bounds.
   */
  function ReadSection(line: string): (s: Section)
    ensures s.Skipped? <==> IndexOf(line, ';') <= 0
    ensures s.Meta? ==> s.key != NOTES_KEY
    ensures !s.Skipped? && 0 <= IndexOf(line, ':') < IndexOf(line, ';') ==>
              KeyOf(s) == line[..IndexOf(line, ':')] &&
              ContentOf(s) == line[IndexOf(line, ':') + 1..IndexOf(line, ';')]
    ensures !s.Skipped? && IndexOf(line, ':') == -1 ==>
              KeyOf(s) == "" && ContentOf(s) == line[..IndexOf(line, ';')]
    ensures !s.Skipped? && IndexOf(line, ';') < IndexOf(line, ':') ==>
              KeyOf(s) == line[..IndexOf(line, ':')] &&
              ContentOf(s) == line[IndexOf(line, ';')..IndexOf(line, ':') + 1]
  {
    var end := IndexOf(line, ';');
    var start := IndexOf(line, ':');
    if end <= 0 then Skipped
    else
      var key := Substring(line, 0, start);
      var content := Substring(line, start + 1, end);
      if key != NOTES_KEY then Meta(key, content) else NotesBody(content)
  }

  /** One iteration of `parseChart`'s `forEach`. */
  function ApplySection(c: Chart, line: string): Result<Chart, ParseError>
  {
    match ReadSection(line)
    case Skipped => Success(c)
    case Meta(k, v) => Success(c.(fields := c.fields[k := Text(v)]))
    case NotesBody(v) =>
      match ParseNotes(v)
      case None => Failure(NotesUndefined)
      case Some(n) =>
        if n.chartType == SINGLE_STYLE then Success(c.(notes := c.notes[n.difficulty := n]))
        else Success(c)
  }

  /** Every kept note chart is single-style and filed under its own difficulty; no field is named `NOTES`. */
  predicate WellFiled(c: Chart)
  {
    && NOTES_KEY !in c.fields
    && forall d :: d in c.notes ==>
         c.notes[d].chartType == SINGLE_STYLE && c.notes[d].difficulty == d && |c.notes[d].data| >= 1
  }

  /** The `forEach` over the chunks, stopping at the first exception. */
  function ParseSections(c: Chart, lines: seq<string>): (r: Result<Chart, ParseError>)
    ensures WellFiled(c) && r.Success? ==> WellFiled(r.value)
    decreases |lines|
  {
    if |lines| == 0 then Success(c)
    else
      match ApplySection(c, lines[0])
      case Failure(e) => Failure(e)
      case Success(c1) =>
        ApplySectionFiles(c, lines[0]);
        ParseSections(c1, lines[1..])
  }

  lemma ApplySectionFiles(c: Chart, line: string)
    ensures WellFiled(c) && ApplySection(c, line).Success? ==> WellFiled(ApplySection(c, line).value)
  {
    if WellFiled(c) {
      match ReadSection(line)
      case Skipped =>
      case Meta(k, v) =>
        assert k != NOTES_KEY;
        var f := c.fields[k := Text(v)];
        assert f.Keys == c.fields.Keys + {k};
      case NotesBody(v) =>
        var n := ParseNotes(v);
        if n.Some? && n.value.chartType == SINGLE_STYLE {
          var m := c.notes[n.value.difficulty := n.value];
          forall d | d in m
            ensures m[d].chartType == SINGLE_STYLE && m[d].difficulty == d && |m[d].data| >= 1
          {
            if d != n.value.difficulty {
              assert m[d] == c.notes[d];
            }
          }
        }
    }
  }

  /**
   * `parseChart(chartName, chartRaw)`. A result never has a field named
   * `NOTES`, and holds only single-style note charts, each under its own
   * difficulty.
   */
  function ParseChart(name: string, raw: string): (r: Result<Chart, ParseError>)
    ensures r.Success? ==> WellFiled(r.value)
  {
    ParseSections(Defaults(name), Split(raw, '#'))
  }

  // ---------------------------------------------------------------------------
  // Reference readings of a list of chunks, independent of the fold above.

  /** A chunk that makes `parseChart` throw: a `NOTES` section with fewer than six fields. */
  predicate Throws(line: string)
  {
    ReadSection(line).NotesBody? && ParseNotes(ReadSection(line).content).None?
  }

  predicate AnyThrows(lines: seq<string>)
    decreases |lines|
  {
    |lines| > 0 && (Throws(lines[0]) || AnyThrows(lines[1..]))
  }

  /** The content of the last metadata section with key `k`, if any. */
  function LastMeta(lines: seq<string>, k: string): Option<string>
    decreases |lines|
  {
    if |lines| == 0 then None
    else
      var later := LastMeta(lines[1..], k);
      if later.Some? then later
      else
        match ReadSection(lines[0])
        case Meta(k1, v) => if k1 == k then Some(v) else None
        case _ => None
  }

  /** The last single-style note chart with difficulty `d`, if any. */
  function LastChart(lines: seq<string>, d: string): Option<NoteChart>
    decreases |lines|
  {
    if |lines| == 0 then None
    else
      var later := LastChart(lines[1..], d);
      if later.Some? then later
      else
        match ReadSection(lines[0])
        case NotesBody(v) =>
          var n := ParseNotes(v);
          if n.Some? && n.value.chartType == SINGLE_STYLE && n.value.difficulty == d then n else None
        case _ => None
  }

  lemma {:induction false} SectionsFail(c: Chart, lines: seq<string>)
    ensures ParseSections(c, lines).Failure? <==> AnyThrows(lines)
    decreases |lines|
  {
    if |lines| > 0 {
      var r := ApplySection(c, lines[0]);
      if r.Success? {
        SectionsFail(r.value, lines[1..]);
      }
    }
  }

  lemma {:induction false} SectionsFields(c: Chart, lines: seq<string>, k: string)
    requires ParseSections(c, lines).Success?
    ensures Get(ParseSections(c, lines).value.fields, k) ==
            match LastMeta(lines, k)
            case Some(v) => Some(Text(v))
            case None => Get(c.fields, k)
    decreases |lines|
  {
    if |lines| > 0 {
      var c1 := ApplySection(c, lines[0]).value;
      assert ParseSections(c, lines) == ParseSections(c1, lines[1..]);
      SectionsFields(c1, lines[1..], k);
      ApplySectionField(c, lines[0], k);
    }
  }

  /** One section sets field `k` exactly when it is a metadata section keyed `k`. */
  lemma ApplySectionField(c: Chart, line: string, k: string)
    requires ApplySection(c, line).Success?
    ensures Get(ApplySection(c, line).value.fields, k) ==
            match ReadSection(line)
            case Meta(k1, v) => if k1 == k then Some(Text(v)) else Get(c.fields, k)
            case _ => Get(c.fields, k)
  {
  }

  lemma {:induction false} SectionsNotes(c: Chart, lines: seq<string>, d: string)
    requires ParseSections(c, lines).Success?
    ensures Get(ParseSections(c, lines).value.notes, d) ==
            match LastChart(lines, d)
            case Some(n) => Some(n)
            case None => Get(c.notes, d)
    decreases |lines|
  {
    if |lines| > 0 {
      var c1 := ApplySection(c, lines[0]).value;
      assert ParseSections(c, lines) == ParseSections(c1, lines[1..]);
      SectionsNotes(c1, lines[1..], d);
      ApplySectionChart(c, lines[0], d);
    }
  }

  /** One section files a chart under `d` exactly when it is a single-style NOTES section naming `d`. */
  lemma ApplySectionChart(c: Chart, line: string, d: string)
    requires ApplySection(c, line).Success?
    ensures Get(ApplySection(c, line).value.notes, d) ==
            match ReadSection(line)
            case NotesBody(v) =>
              var n := ParseNotes(v);
              if n.Some? && n.value.chartType == SINGLE_STYLE && n.value.difficulty == d then n else Get(c.notes, d)
            case _ => Get(c.notes, d)
  {
  }

  /**
   * `parseChart` throws exactly when some chunk is a `NOTES` section with
   * fewer than six fields; a malformed `NOTES` section is not skipped.
   */
  lemma ParseChartThrows(name: string, raw: string)
    ensures ParseChart(name, raw).Failure? <==> AnyThrows(Split(raw, '#'))
  {
    SectionsFail(Defaults(name), Split(raw, '#'));
  }

  /**
   * Every metadata key holds the raw content of the last section with that
   * key; `CHARTNAME` and `OFFSET` keep their defaults unless some section
   * overwrites them, and no other key is present unless a section sets it.
   */
  lemma ParseChartFields(name: string, raw: string, k: string)
    requires ParseChart(name, raw).Success?
    ensures Get(ParseChart(name, raw).value.fields, k) ==
            match LastMeta(Split(raw, '#'), k)
            case Some(v) => Some(Text(v))
            case None =>
              if k == "CHARTNAME" then Some(Text(name))
              else if k == "OFFSET" then Some(Number(0))
              else None
  {
    SectionsFields(Defaults(name), Split(raw, '#'), k);
  }

  /**
   * The note chart kept under difficulty `d` is the last single-style one
   * with that difficulty: later sections replace earlier ones, other styles
   * are dropped.
   */
  lemma ParseChartNotes(name: string, raw: string, d: string)
    requires ParseChart(name, raw).Success?
    ensures Get(ParseChart(name, raw).value.notes, d) == LastChart(Split(raw, '#'), d)
  {
    SectionsNotes(Defaults(name), Split(raw, '#'), d);
  }
}

=== FILE: frame.dfy ===
/**
 * One play-phase frame as the two sprites update it: the player sprite reads
 * the keys and judges (`updateInput`), then the note pool manager spawns,
 * times out, culls and moves the dancer (`update`). Each step keeps the
 * play-time invariant of the `Playfield` module.
 */
module Frame {
  import opened Results
  import opened ChartParser
  import opened Timeline
  import opened Playfield
  import opened Spawner
  import opened Judge
  import opened Misses

  /** Where the source throws a `TypeError`. */
  datatype Crash =
    | SpawnFailed(error: SpawnError)
      /** A key is pressed before the song buffer has loaded: `validateNote` reads its duration. */
    | NoSongBuffer
      /** The chart of the song has no `dance-single` chart of the requested difficulty. */
    | MissingDifficulty(difficulty: string)

  /** The play-time state: counters, pool, last frame's pressed lanes, beats the dancer has yet to take. */
  datatype Play = Play(tally: Tally, pool: Pool, prev: Bits, beats: seq<real>)

  /** A loaded song buffer has a positive length. */
  predicate ClockOk(clock: Option<Clock>)
  {
    clock.Some? ==> clock.value.duration > 0.0
  }

  /** The song position in measures, `curP * measureCount`, that the spawn loop runs against. */
  function MeasurePos(c: Clock, count: nat): real
    requires c.duration > 0.0
  {
    c.now / c.duration * count as real
  }

  /** The play-time invariant on a play state. */
  predicate PlayInv(s: Play, ms: seq<Measure>)
  {
    Inv(s.tally, s.pool, ms)
  }

  /**
   * `Sprite_RPGmaniaPlayer.updateInput`: with any key down, the lanes newly
   * pressed are judged, which needs the song clock; then held holds are
   * sustained or released against the pressed lanes; the pressed lanes are
   * remembered for the next frame. `g` is `validateNote`'s guard:
   * `TruthyTime` as written, `AnyTime` as intended.
   */
  function PlayerInput(s: Play, pressed: Bits, clock: Option<Clock>, g: Guard): (r: Result<Play, Crash>)
    requires TallyOk(s.tally) && Linked(s.pool)
    ensures r.Failure? <==> pressed != 0 && clock.None?
    ensures r.Success? ==> r.value.prev == pressed && r.value.beats == s.beats
    ensures r.Success? ==> r.value.pool.cursor == s.pool.cursor && r.value.tally.score >= s.tally.score
    ensures r.Success? && pressed == 0 ==> r.value.pool.active == s.pool.active
  {
    if pressed != 0 && clock.None? then Failure(NoSongBuffer)
    else
      var j := if pressed != 0 then ValidateNote(s.tally, s.pool, Edges(pressed, s.prev), clock.value, g)
               else Judged(s.tally, s.pool, []);
      assert Linked(j.pool) by {
        if pressed != 0 {
          ValidateKeepsLinks(s.tally, s.pool, Edges(pressed, s.prev), clock.value, g);
        }
      }
      var h := UpdateHeldNotes(j.tally, j.pool, pressed);
      Success(Play(h.0, h.1, pressed, s.beats))
  }

  lemma ValidateKeepsLinks(t: Tally, p: Pool, bits: Bits, c: Clock, g: Guard)
    requires TallyOk(t) && Linked(p)
    ensures Linked(ValidateNote(t, p, bits, c, g).pool)
  {
    var q := ValidateNote(t, p, bits, c, g).pool;
    ValidateNoteRemovesHits(t, p, bits, c, g);
    forall i | 0 <= i < |q.active| && q.active[i].hold.Some?
      ensures q.active[i].hold.value < |q.holds|
    {
      assert q.active[i] in p.active;
    }
  }

  lemma ValidateKeepsInv(t: Tally, p: Pool, bits: Bits, c: Clock, g: Guard, ms: seq<Measure>)
    requires Inv(t, p, ms)
    ensures Inv(ValidateNote(t, p, bits, c, g).tally, ValidateNote(t, p, bits, c, g).pool, ms)
  {
    var r := ValidateNote(t, p, bits, c, g);
    var q := r.pool;
    ValidateNoteRemovesHits(t, p, bits, c, g);
    forall i | 0 <= i < |q.active|
      ensures q.active[i].time < q.cursor as real / |ms| as real
      ensures q.active[i].hold.Some? ==> q.active[i].hold.value < |q.holds|
    {
      assert q.active[i] in p.active;
    }
  }

  /** Judging and sustaining keep the play-time invariant. */
  lemma PlayerInputKeepsInv(s: Play, pressed: Bits, clock: Option<Clock>, g: Guard, ms: seq<Measure>)
    requires PlayInv(s, ms)
    ensures PlayerInput(s, pressed, clock, g).Success? ==> PlayInv(PlayerInput(s, pressed, clock, g).value, ms)
  {
    if pressed != 0 && clock.Some? {
      ValidateKeepsInv(s.tally, s.pool, Edges(pressed, s.prev), clock.value, g, ms);
    }
  }

  /**
   * Keeping the same keys down judges nothing: the notes on the playfield
   * stay, and the score only gains sustain points.
   */
  lemma HeldKeysJudgeNothing(s: Play, clock: Option<Clock>, g: Guard)
    requires TallyOk(s.tally) && Linked(s.pool) && clock.Some?
    ensures PlayerInput(s, s.prev, clock, g).Success?
    ensures PlayerInput(s, s.prev, clock, g).value.pool.active == s.pool.active
    ensures PlayerInput(s, s.prev, clock, g).value.tally.rankings == s.tally.rankings
    ensures PlayerInput(s, s.prev, clock, g).value.tally.combo == s.tally.combo
  {
    HeldKeysGiveNoEdges(s.prev);
  }

  /** The outcome of the pool manager's update: the new play state, and whether the song has ended. */
  datatype Step = Step(play: Play, ended: bool)

  /**
   * `Sprite_RPGmaniaNotePoolManager.update` in the play phase. Without a
   * loaded buffer it does nothing. Otherwise the song has ended once the
   * clock reaches the song's length; notes are spawned up to five measures
   * ahead; timed-out notes are missed; the hold bars in `offscreen`, which
   * the presentation computes from their geometry, are released; notes
   * below the screen are culled; the dancer takes at most one beat. With a
   * clock it fails exactly when the measures it spawns hold a `3` on a lane
   * with no hold opened before it.
   */
  function PoolUpdate(s: Play, ms: seq<Measure>, clock: Option<Clock>, boxHeight: real, offscreen: set<nat>): (r: Result<Step, Crash>)
    requires TallyOk(s.tally) && Linked(s.pool) && s.pool.cursor <= |ms| && ClockOk(clock)
    ensures clock.None? ==> r == Success(Step(s, false))
    ensures r.Failure? ==> r.error.SpawnFailed?
    ensures clock.Some? ==> (r.Success? <==> SpawnsWithoutOrphan(s.pool, ms, MeasurePos(clock.value, |ms|)))
    ensures r.Success? && clock.Some? ==> (r.value.ended <==> clock.value.now >= clock.value.duration)
    ensures r.Success? ==> s.pool.cursor <= r.value.play.pool.cursor <= |ms|
    ensures r.Success? ==> r.value.play.prev == s.prev && r.value.play.tally.score == s.tally.score
    ensures r.Success? ==> TallyOk(r.value.play.tally) && Linked(r.value.play.pool)
    ensures r.Success? ==> r.value.play.tally.rankings[MISS] >= s.tally.rankings[MISS]
    ensures r.Success? ==> forall k :: MISS < k < 5 ==> r.value.play.tally.rankings[k] == s.tally.rankings[k]
    ensures r.Success? && PlayInv(s, ms) ==> PlayInv(r.value.play, ms)
  {
    if clock.None? then Success(Step(s, false))
    else
      var c := clock.value;
      var curP := c.now / c.duration;
      SpawnAheadReach(s.pool, ms, MeasurePos(c, |ms|));
      match SpawnAhead(s.pool, ms, MeasurePos(c, |ms|))
      case Failure(e) => Failure(SpawnFailed(e))
      case Success(p1) =>
        var settled := Settle(s, p1, curP, c.duration, boxHeight, offscreen);
        assert PlayInv(s, ms) ==> PlayInv(settled, ms) by {
          if PlayInv(s, ms) {
            SpawnKeepsInv(s.tally, s.pool, ms, MeasurePos(c, |ms|));
            SettleKeepsInv(s, p1, curP, c.duration, boxHeight, offscreen, ms);
          }
        }
        Success(Step(settled, c.now >= c.duration))
  }

  /**
   * The part of the pool manager's update after spawning, at song fraction
   * `curP` of a song `total` seconds long: timeouts, hold release, cull, dancer.
   */
  function Settle(s: Play, p1: Pool, curP: real, total: real, boxHeight: real, offscreen: set<nat>): (r: Play)
    requires TallyOk(s.tally) && Linked(p1)
    ensures TallyOk(r.tally) && Linked(r.pool)
    ensures r.pool.cursor == p1.cursor && r.prev == s.prev && r.tally.score == s.tally.score
    ensures r.tally.rankings[MISS] >= s.tally.rankings[MISS]
    ensures forall k :: MISS < k < 5 ==> r.tally.rankings[k] == s.tally.rankings[k]
  {
    var tm := TimeoutMisses(s.tally, p1.active, curP, total);
    var p2 := p1.(active := tm.1, held := ReleaseHolds(p1.held, offscreen));
    MissesKeepLinks(p1, tm.1, offscreen);
    var cu := CullPastBottom(tm.0, p2.active, curP, boxHeight);
    SuffixKeepsLinks(p2, |p2.active| - |cu.1|);
    Play(cu.0, p2.(active := cu.1), s.prev, DancerStep(s.beats, curP))
  }

  /** Settling keeps the play-time invariant. */
  lemma SettleKeepsInv(s: Play, p1: Pool, curP: real, total: real, boxHeight: real, offscreen: set<nat>, ms: seq<Measure>)
    requires Inv(s.tally, p1, ms)
    ensures PlayInv(Settle(s, p1, curP, total, boxHeight, offscreen), ms)
  {
    var tm := TimeoutMisses(s.tally, p1.active, curP, total);
    var p2 := p1.(active := tm.1, held := ReleaseHolds(p1.held, offscreen));
    MissStepKeepsInv(s.tally, p1, curP, total, offscreen, ms);
    CullKeepsInv(tm.0, p2, curP, boxHeight, ms);
  }

  /** Timing out keeps the invariant: each newly missed note moves from pending to the Miss count. */
  lemma TimeoutKeepsInv(t: Tally, p: Pool, curP: real, total: real, ms: seq<Measure>)
    requires Inv(t, p, ms)
    ensures var tm := TimeoutMisses(t, p.active, curP, total); Inv(tm.0, p.(active := tm.1), ms)
  {
  }

  /** Dropping a prefix of the active notes keeps their links. */
  lemma SuffixKeepsLinks(p: Pool, d: nat)
    requires d <= |p.active| && Linked(p)
    ensures Linked(p.(active := p.active[d..]))
  {
    var q := p.active[d..];
    assert forall i :: 0 <= i < |q| ==> q[i] == p.active[d + i];
  }

  /** Dropping a prefix of the active notes keeps their order and their bound. */
  lemma SuffixKeepsOrder(p: Pool, d: nat, ms: seq<Measure>)
    requires d <= |p.active| && Sorted(p.active) && Ahead(p, ms)
    ensures Sorted(p.active[d..]) && Ahead(p.(active := p.active[d..]), ms)
  {
    var q := p.active[d..];
    assert forall i :: 0 <= i < |q| ==> q[i] == p.active[d + i];
  }

  /** Marking notes missed and releasing hold bars keeps every link. */
  lemma MissesKeepLinks(p: Pool, notes: seq<Note>, offscreen: set<nat>)
    requires Linked(p) && |notes| == |p.active|
    requires forall i :: 0 <= i < |notes| ==> notes[i].hold == p.active[i].hold
    ensures Linked(p.(active := notes, held := ReleaseHolds(p.held, offscreen)))
  {
    var h := ReleaseHolds(p.held, offscreen);
    forall i | 0 <= i < |h|
      ensures h[i] < |p.holds|
    {
      assert h[i] in p.held;
    }
  }

  /** Culling keeps the invariant: the culled notes are a prefix, and each pending one is counted as a miss. */
  lemma CullKeepsInv(t: Tally, p: Pool, curP: real, boxHeight: real, ms: seq<Measure>)
    requires Inv(t, p, ms)
    ensures var cu := CullPastBottom(t, p.active, curP, boxHeight); Inv(cu.0, p.(active := cu.1), ms)
  {
    var cu := CullPastBottom(t, p.active, curP, boxHeight);
    SuffixKeepsLinks(p, |p.active| - |cu.1|);
    SuffixKeepsOrder(p, |p.active| - |cu.1|, ms);
  }

  /** Spawning keeps the invariant: the notes of every newly read measure become pending. */
  lemma SpawnKeepsInv(t: Tally, p: Pool, ms: seq<Measure>, curMes: real)
    requires Inv(t, p, ms)
    ensures SpawnAhead(p, ms, curMes).Success? ==> Inv(t, SpawnAhead(p, ms, curMes).value, ms)
  {
  }

  /** Timing out and releasing hold bars together keep the invariant. */
  lemma MissStepKeepsInv(t: Tally, p: Pool, curP: real, total: real, offscreen: set<nat>, ms: seq<Measure>)
    requires Inv(t, p, ms)
    ensures var tm := TimeoutMisses(t, p.active, curP, total);
            Inv(tm.0, p.(active := tm.1, held := ReleaseHolds(p.held, offscreen)), ms)
  {
    var tm := TimeoutMisses(t, p.active, curP, total);
    TimeoutKeepsInv(t, p, curP, total, ms);
    MissesKeepLinks(p, tm.1, offscreen);
  }

  /** A full play-phase frame: input first, then the pool manager; `g` is the judge's guard. */
  function PlayFrame(s: Play, ms: seq<Measure>, pressed: Bits, clock: Option<Clock>, boxHeight: real, offscreen: set<nat>, g: Guard): (r: Result<Step, Crash>)
    requires PlayInv(s, ms) && ClockOk(clock)
    ensures r.Success? ==> PlayInv(r.value.play, ms)
    ensures r.Success? ==> s.pool.cursor <= r.value.play.pool.cursor && r.value.play.prev == pressed
    ensures r.Failure? && r.error == NoSongBuffer <==> pressed != 0 && clock.None?
    ensures r.Success? ==> (r.value.ended <==> clock.Some? && clock.value.now >= clock.value.duration)
  {
    PlayerInputKeepsInv(s, pressed, clock, g, ms);
    match PlayerInput(s, pressed, clock, g)
    case Failure(e) => Failure(e)
    case Success(s1) =>
      PoolUpdate(s1, ms, clock, boxHeight, offscreen)
  }

  /** The beats left to the dancer stay in order, and a frame takes at most one. */
  lemma DancerStepOrdered(beats: seq<real>, curP: real)
    requires StrictlyIncreasing(beats)
    ensures StrictlyIncreasing(DancerStep(beats, curP))
    ensures |beats| - 1 <= |DancerStep(beats, curP)| <= |beats|
    ensures forall k :: 0 <= k < |DancerStep(beats, curP)| && DancerStep(beats, curP) != beats ==>
              curP > beats[0] && beats[0] < DancerStep(beats, curP)[k]
  {
  }
}

=== FILE: hud.dfy ===
/**
 * The arithmetic of the play HUD: which of the four combo digit sprites
 * `drawComboDigits` shows and which digit each shows, and the sprite-sheet
 * frame `setRankText` picks for a rank.
 */
module Hud {

  /** Number of combo digit sprites (`createComboDigits`). */
  const DIGIT_SLOTS: nat := 4

  function Abs(x: int): nat
  {
    if x < 0 then -x else x
  }

  /** `n.toString()` for a non-negative integer: decimal digits, most significant first. */
  function DecimalString(n: nat): (s: string)
    ensures 1 <= |s|
    ensures forall k :: 0 <= k < |s| ==> '0' <= s[k] <= '9'
    decreases n
  {
    if n < 10 then [DigitChar(n)] else DecimalString(n / 10) + [DigitChar(n % 10)]
  }

  function DigitChar(d: nat): (c: char)
    requires d < 10
    ensures '0' <= c <= '9'
  {
    "0123456789"[d]
  }

  /** `Number(c)` for a digit character. */
  function DigitValue(c: char): (d: nat)
    requires '0' <= c <= '9'
    ensures d < 10
    ensures DigitChar(d) == c
  {
    (c as int - '0' as int) as nat
  }

  function Pow10(i: nat): (p: nat)
    ensures p >= 1
  {
    if i == 0 then 1 else 10 * Pow10(i - 1)
  }

  /** The `i`-th least significant decimal digit, by repeated division. */
  function Digit(n: nat, i: nat): (d: nat)
    ensures d < 10
  {
    if i == 0 then n % 10 else Digit(n / 10, i - 1)
  }

  /** The decimal string of `n` is longer than `i` exactly when `n` reaches `10^i` (or `i` is 0). */
  lemma {:induction false} DecimalLength(n: nat, i: nat)
    ensures i < |DecimalString(n)| <==> i == 0 || Pow10(i) <= n
    decreases n
  {
    if n >= 10 && i > 0 {
      DecimalLength(n / 10, i - 1);
      if i - 1 > 0 {
        assert Pow10(i) == 10 * Pow10(i - 1);
      }
    } else if n < 10 && i > 0 {
      assert Pow10(i) >= 10 by {
        PowAtLeastTen(i);
      }
    }
  }

  lemma {:induction false} PowAtLeastTen(i: nat)
    requires i > 0
    ensures Pow10(i) >= 10
  {
    if i > 1 {
      PowAtLeastTen(i - 1);
    }
  }

  /** Reading the string from the right gives the digits from the least significant one. */
  lemma {:induction false} DecimalDigit(n: nat, i: nat)
    requires i < |DecimalString(n)|
    ensures DigitValue(DecimalString(n)[|DecimalString(n)| - (i + 1)]) == Digit(n, i)
    decreases n
  {
    var s := DecimalString(n);
    if n >= 10 {
      var prefix := DecimalString(n / 10);
      assert s == prefix + [DigitChar(n % 10)];
      if i > 0 {
        DecimalDigit(n / 10, i - 1);
        assert s[|s| - (i + 1)] == prefix[|prefix| - i];
      }
      DigitRoundTrip(n % 10);
    } else {
      DigitRoundTrip(n);
    }
  }

  lemma DigitRoundTrip(d: nat)
    requires d < 10
    ensures DigitValue(DigitChar(d)) == d
  {
  }

  /** One combo digit sprite: hidden, or showing the frame of a digit. */
  datatype Slot = Hidden | Shown(digit: nat)

  /**
   * `drawComboDigits(value)`: slot `i` shows the `i`-th character from the
   * right of the decimal string of `|value|` when the value is positive and
   * the string is long enough; the other slots are hidden.
   */
  function ComboDigits(value: int): (r: seq<Slot>)
    ensures |r| == DIGIT_SLOTS
    ensures value <= 0 ==> forall i :: 0 <= i < |r| ==> r[i] == Hidden
    ensures forall i :: 0 <= i < |r| && r[i].Shown? ==> r[i].digit < 10
  {
    var s := DecimalString(Abs(value));
    seq(DIGIT_SLOTS, i requires 0 <= i < DIGIT_SLOTS =>
      if value > 0 && i < |s| then Shown(DigitValue(s[|s| - (i + 1)])) else Hidden)
  }

  /** `_comboText.visible = value > 0`. */
  predicate ComboTextVisible(value: int)
  {
    value > 0
  }

  /**
   * For a positive combo, slot `i` is visible exactly when the combo reaches
   * `10^i`, and then shows its `i`-th least significant digit.
   */
  lemma ComboDigitsArithmetic(value: int, i: nat)
    requires value > 0 && i < DIGIT_SLOTS
    ensures ComboDigits(value)[i].Shown? <==> Pow10(i) <= value
    ensures ComboDigits(value)[i].Shown? ==> ComboDigits(value)[i].digit == Digit(value, i)
  {
    DecimalLength(value, i);
    if i < |DecimalString(value)| {
      DecimalDigit(value, i);
    }
    assert Pow10(0) == 1;
  }

  /** The weighted sum of the shown digits. */
  function ShownValue(slots: seq<Slot>, i: nat): nat
    requires i <= |slots|
    decreases |slots| - i
  {
    if i == |slots| then 0
    else (if slots[i].Shown? then slots[i].digit * Pow10(i) else 0) + ShownValue(slots, i + 1)
  }

  /** The four lowest decimal digits of `n` make up `n % 10000`. */
  lemma LastFourDigits(n: nat)
    ensures Digit(n, 0) + 10 * Digit(n, 1) + 100 * Digit(n, 2) + 1000 * Digit(n, 3) == n % 10000
  {
    var a := n / 10;
    var b := a / 10;
    var c := b / 10;
    assert Digit(n, 1) == a % 10;
    assert Digit(n, 2) == b % 10 by {
      assert Digit(n, 2) == Digit(a, 1);
    }
    assert Digit(n, 3) == c % 10 by {
      assert Digit(n, 3) == Digit(a, 2) == Digit(b, 1);
    }
    PlaceValues(n);
  }

  /** Peeling off four decimal digits by division leaves `n % 10000` as their weighted sum. */
  lemma PlaceValues(n: nat)
    ensures n % 10 + 10 * (n / 10 % 10) + 100 * (n / 10 / 10 % 10) + 1000 * (n / 10 / 10 / 10 % 10) == n % 10000
  {
    var a, b, c := n / 10, n / 10 / 10, n / 10 / 10 / 10;
    var e := c / 10;
    var low := n % 10 + 10 * (a % 10) + 100 * (b % 10) + 1000 * (c % 10);
    assert n == 10 * a + n % 10;
    assert a == 10 * b + a % 10;
    assert b == 10 * c + b % 10;
    assert c == 10 * e + c % 10;
    assert n == 10000 * e + low;
    assert 0 <= low < 10000;
    ModOfSplit(n, e, low);
  }

  lemma ModOfSplit(n: nat, q: nat, r: nat)
    requires n == 10000 * q + r && r < 10000
    ensures n % 10000 == r
  {
  }

  /** The digits shown spell the combo modulo 10000: a longer combo shows its last four digits. */
  lemma ComboDigitsSpellValue(value: int)
    requires value > 0
    ensures ShownValue(ComboDigits(value), 0) == value % 10000
  {
    var r := ComboDigits(value);
    var n: nat := value;
    assert Pow10(1) == 10 && Pow10(2) == 100 && Pow10(3) == 1000;
    forall i | 0 <= i < 4
      ensures (if r[i].Shown? then r[i].digit * Pow10(i) else 0) == Digit(n, i) * Pow10(i)
    {
      ComboDigitsArithmetic(value, i);
      if !r[i].Shown? {
        DigitBeyond(n, i);
      }
    }
    assert ShownValue(r, 4) == 0;
    assert ShownValue(r, 3) == Digit(n, 3) * Pow10(3);
    assert ShownValue(r, 2) == Digit(n, 2) * Pow10(2) + ShownValue(r, 3);
    assert ShownValue(r, 1) == Digit(n, 1) * Pow10(1) + ShownValue(r, 2);
    assert ShownValue(r, 0) == Digit(n, 0) * Pow10(0) + ShownValue(r, 1);
    assert ShownValue(r, 0) == Digit(n, 0) + 10 * Digit(n, 1) + 100 * Digit(n, 2) + 1000 * Digit(n, 3);
    LastFourDigits(n);
  }

  /** Digits beyond the most significant one are 0. */
  lemma {:induction false} DigitBeyond(n: nat, i: nat)
    requires n < Pow10(i)
    ensures Digit(n, i) == 0
  {
    if i > 0 {
      assert n / 10 < Pow10(i - 1);
      DigitBeyond(n / 10, i - 1);
    }
  }

  /**
   * `setRankText(rank)`: the rank sheet is two columns wide; rank `k` sits
   * in column `k % 2` of row `floor(k / 2) + 1`, row 0 holding the digits.
   */
  function RankFrame(rank: nat): (f: (nat, nat))
    ensures f.0 < 2 && 1 <= f.1
    ensures rank == 2 * (f.1 - 1) + f.0
  {
    (rank % 2, rank / 2 + 1)
  }

  /** The frame `setupComboDigits` gives the word "combo": column 1, row 3. */
  const COMBO_TEXT_FRAME: (nat, nat) := (1, 3)

  /**
   * Different ranks use different frames; ranks 0..4 stay off the combo
   * word's frame, which the result screen's sixth row (rank 5, the highest
   * combo) reuses.
   */
  lemma RankFramesDistinct(a: nat, b: nat)
    ensures RankFrame(a) == RankFrame(b) <==> a == b
    ensures a < 5 ==> RankFrame(a) != COMBO_TEXT_FRAME
    ensures RankFrame(5) == COMBO_TEXT_FRAME
  {
  }
}

=== FILE: jsstrings.dfy ===
/**
 * The JavaScript string built-ins the chart parser relies on, written out over
 * `seq<char>`: `indexOf`, `substring`, `split` (on a character and on the line
 * break pattern `\r?\n`), `trim`, `replaceAll` of a two-character literal and
 * `startsWith`. Each one carries the property that pins its meaning down, and
 * the lemmas below relate it to an independent partner (`Join`, a CRLF
 * normaliser, a characterisation of trimming).
 */
module JsStrings {

  /** Number of occurrences of `c` in `s`. */
  function Count(s: string, c: char): nat
  {
    if |s| == 0 then 0 else (if s[0] == c then 1 else 0) + Count(s[1..], c)
  }

  lemma {:induction false} CountAppend(a: string, b: string, c: char)
    ensures Count(a + b, c) == Count(a, c) + Count(b, c)
    decreases |a|
  {
    if |a| == 0 {
      assert a + b == b;
    } else {
      assert (a + b)[1..] == a[1..] + b;
      CountAppend(a[1..], b, c);
    }
  }

  lemma {:induction false} CountAbsent(s: string, c: char)
    requires c !in s
    ensures Count(s, c) == 0
    decreases |s|
  {
    if |s| > 0 {
      assert s[0] != c;
      assert forall x :: x in s[1..] ==> x in s;
      CountAbsent(s[1..], c);
    }
  }

  /**
   * `s.indexOf(c)`: the index of the first `c` in `s`, or -1 when there is none.
   */
  function IndexOf(s: string, c: char): (r: int)
    ensures -1 <= r < |s|
    ensures r == -1 <==> c !in s
    ensures 0 <= r ==> s[r] == c && c !in s[..r]
  {
    if |s| == 0 then -1
    else if s[0] == c then 0
    else
      var k := IndexOf(s[1..], c);
      assert k >= 0 ==> s[..k + 1] == [s[0]] + s[1..][..k];
      assert k == -1 ==> s == [s[0]] + s[1..];
      if k == -1 then -1 else k + 1
  }

  /** The first `c` of `a + [c] + b` is the one after `a` when `a` holds none. */
  lemma IndexOfAfter(a: string, b: string, c: char)
    requires c !in a
    ensures IndexOf(a + [c] + b, c) == |a|
  {
    var s := a + [c] + b;
    assert s[|a|] == c;
    assert s[..|a|] == a;
  }

  /** Clamps an index into `[0, n]`, as `substring` does with its arguments. */
  function Clamp(x: int, n: nat): (r: nat)
    ensures r <= n
    ensures 0 <= x <= n ==> r == x
    ensures x < 0 ==> r == 0
    ensures x > n ==> r == n
  {
    if x < 0 then 0 else if x > n then n else x
  }

  /**
   * `s.substring(a, b)`: both bounds are clamped into `[0, |s|]` (so a negative
   * bound such as `indexOf`'s -1 reads as 0) and swapped when reversed.
   */
  function Substring(s: string, a: int, b: int): (r: string)
    ensures 0 <= a <= b <= |s| ==> r == s[a..b]
    ensures 0 <= b <= a <= |s| ==> r == s[b..a]
    ensures a < 0 && 0 <= b <= |s| ==> r == s[..b]
    ensures |r| == if Clamp(a, |s|) <= Clamp(b, |s|) then Clamp(b, |s|) - Clamp(a, |s|)
                   else Clamp(a, |s|) - Clamp(b, |s|)
  {
    var lo := Clamp(a, |s|);
    var hi := Clamp(b, |s|);
    if lo <= hi then s[lo..hi] else s[hi..lo]
  }

  /** The order of `substring`'s arguments does not matter. */
  lemma SubstringSymmetric(s: string, a: int, b: int)
    ensures Substring(s, a, b) == Substring(s, b, a)
  {
  }

  /** `parts.join(c)`: the inverse of `Split`. */
  function Join(parts: seq<string>, c: char): string
  {
    if |parts| == 0 then []
    else if |parts| == 1 then parts[0]
    else parts[0] + [c] + Join(parts[1..], c)
  }

  /**
   * `s.split(c)`: the maximal `c`-free pieces of `s`, in order. There is always
   * one more piece than there are separators, and joining the pieces back
   * with `c` gives `s`.
   */
  function Split(s: string, c: char): (parts: seq<string>)
    ensures |parts| == Count(s, c) + 1
    ensures forall i :: 0 <= i < |parts| ==> c !in parts[i]
    ensures Join(parts, c) == s
    decreases |s|
  {
    var k := IndexOf(s, c);
    if k == -1 then
      CountAbsent(s, c);
      [s]
    else
      var rest := Split(s[k + 1..], c);
      assert s == s[..k] + [c] + s[k + 1..];
      CountAppend(s[..k] + [c], s[k + 1..], c);
      CountAppend(s[..k], [c], c);
      CountAbsent(s[..k], c);
      assert Count([c], c) == 1 by {
        assert [c][1..] == [];
      }
      var parts := [s[..k]] + rest;
      assert parts[1..] == rest;
      assert Join(parts, c) == s[..k] + [c] + Join(rest, c);
      parts
  }

  /** `Split` undoes `Join` when no piece contains the separator. */
  lemma {:induction false} SplitJoin(parts: seq<string>, c: char)
    requires |parts| >= 1
    requires forall i :: 0 <= i < |parts| ==> c !in parts[i]
    ensures Split(Join(parts, c), c) == parts
    decreases |parts|
  {
    if |parts| > 1 {
      var rest := parts[1..];
      var s := Join(parts, c);
      assert s == parts[0] + [c] + Join(rest, c);
      IndexOfAfter(parts[0], Join(rest, c), c);
      assert s[..|parts[0]|] == parts[0];
      assert s[|parts[0]| + 1..] == Join(rest, c);
      SplitJoin(rest, c);
      assert Split(s, c) == [parts[0]] + Split(Join(rest, c), c);
      assert parts == [parts[0]] + rest;
    } else {
      assert Join(parts, c) == parts[0];
    }
  }

  /**
   * The characters JavaScript's `trim` removes: the WhiteSpace and
   * LineTerminator productions of the ECMAScript grammar.
   */
  predicate IsJsSpace(ch: char)
  {
    || ch == '\t' || ch == '\n' || ch == '\r' || ch == ' '
    || ch == '\U{000B}' || ch == '\U{000C}' || ch == '\U{00A0}' || ch == '\U{1680}'
    || ('\U{2000}' <= ch <= '\U{200A}')
    || ch == '\U{2028}' || ch == '\U{2029}' || ch == '\U{202F}' || ch == '\U{205F}'
    || ch == '\U{3000}' || ch == '\U{FEFF}'
  }

  predicate AllSpace(s: string)
  {
    forall k :: 0 <= k < |s| ==> IsJsSpace(s[k])
  }

  /** `s.trimStart()`: drops the longest all-space prefix. */
  function TrimStart(s: string): (r: string)
    ensures |r| <= |s| && r == s[|s| - |r|..]
    ensures AllSpace(s[..|s| - |r|])
    ensures |r| == 0 || !IsJsSpace(r[0])
  {
    if |s| > 0 && IsJsSpace(s[0]) then
      var tail := s[1..];
      var r := TrimStart(tail);
      var d := |s| - |r|;
      assert AllSpace(s[..d]) by {
        assert AllSpace(tail[..d - 1]);
        forall k | 0 <= k < d
          ensures IsJsSpace(s[..d][k])
        {
          if k > 0 {
            assert s[..d][k] == tail[..d - 1][k - 1];
          }
        }
      }
      assert r == s[d..] by {
        assert tail[|tail| - |r|..] == s[d..];
      }
      r
    else s
  }

  /** `s.trimEnd()`: drops the longest all-space suffix. */
  function TrimEnd(s: string): (r: string)
    ensures |r| <= |s| && r == s[..|r|]
    ensures AllSpace(s[|r|..])
    ensures |r| == 0 || !IsJsSpace(r[|r| - 1])
  {
    if |s| > 0 && IsJsSpace(s[|s| - 1]) then
      var init := s[..|s| - 1];
      var r := TrimEnd(init);
      assert AllSpace(s[|r|..]) by {
        assert AllSpace(init[|r|..]);
        forall k | 0 <= k < |s| - |r|
          ensures IsJsSpace(s[|r|..][k])
        {
          if k < |s| - 1 - |r| {
            assert s[|r|..][k] == init[|r|..][k];
          }
        }
      }
      assert r == s[..|r|] by {
        assert init[..|r|] == s[..|r|];
      }
      r
    else s
  }

  /** `s.trim()`: neither end of the result is a space. */
  function Trim(s: string): (r: string)
    ensures |r| <= |s|
    ensures |r| == 0 || (!IsJsSpace(r[0]) && !IsJsSpace(r[|r| - 1]))
  {
    var t := TrimStart(s);
    var r := TrimEnd(t);
    assert |r| > 0 ==> r[0] == t[0];
    r
  }

  /** A slice holds only characters of the string it is cut from. */
  lemma SliceChars(s: string, i: nat, j: nat)
    requires i <= j <= |s|
    ensures forall ch :: ch in s[i..j] ==> ch in s
  {
    forall ch | ch in s[i..j]
      ensures ch in s
    {
      var k :| 0 <= k < j - i && s[i..j][k] == ch;
      assert s[i + k] == ch;
    }
  }

  /** Trimming only removes characters. */
  lemma TrimChars(s: string)
    ensures forall ch :: ch in Trim(s) ==> ch in s
  {
    var u := TrimStart(s);
    SliceChars(s, |s| - |u|, |s|);
    SliceChars(u, 0, |Trim(s)|);
  }

  lemma {:induction false} TrimStartSkips(w: string, t: string)
    requires AllSpace(w)
    requires |t| == 0 || !IsJsSpace(t[0])
    ensures TrimStart(w + t) == t
    decreases |w|
  {
    if |w| > 0 {
      assert (w + t)[1..] == w[1..] + t;
      TrimStartSkips(w[1..], t);
    } else {
      assert w + t == t;
    }
  }

  lemma {:induction false} TrimEndSkips(t: string, w: string)
    requires AllSpace(w)
    requires |t| == 0 || !IsJsSpace(t[|t| - 1])
    ensures TrimEnd(t + w) == t
    decreases |w|
  {
    if |w| > 0 {
      assert (t + w)[..|t + w| - 1] == t + w[..|w| - 1];
      TrimEndSkips(t, w[..|w| - 1]);
    } else {
      assert t + w == t;
    }
  }

  /**
   * `Trim` is characterised by its result: whatever sits between an all-space
   * prefix and an all-space suffix, and starts and ends with a non-space, is
   * exactly what `trim` returns.
   */
  lemma TrimExactly(w1: string, x: string, w2: string)
    requires AllSpace(w1) && AllSpace(w2)
    requires |x| == 0 || (!IsJsSpace(x[0]) && !IsJsSpace(x[|x| - 1]))
    ensures Trim(w1 + x + w2) == x
  {
    if |x| == 0 {
      assert w1 + x + w2 == w1 + w2;
      assert AllSpace(w1 + w2);
      TrimStartSkips(w1 + w2, []);
      assert w1 + w2 + [] == w1 + w2;
    } else {
      assert w1 + x + w2 == w1 + (x + w2);
      TrimStartSkips(w1, x + w2);
      TrimEndSkips(x, w2);
    }
  }

  /** Trimming twice is trimming once. */
  lemma TrimIdempotent(s: string)
    ensures Trim(Trim(s)) == Trim(s)
  {
    var x := Trim(s);
    assert [] + x + [] == x;
    TrimExactly([], x, []);
  }

  /** `s` contains `a` immediately followed by `b`. */
  predicate HasPair(s: string, a: char, b: char)
  {
    exists i :: 0 <= i < |s| - 1 && s[i] == a && s[i + 1] == b
  }

  /**
   * `s.replaceAll(ab, "")` for the two-character literal `ab`: scans left to
   * right and deletes each non-overlapping occurrence. The result equals `s`
   * exactly when `s` holds no occurrence; it may hold new ones, formed by
   * the characters around a deleted pair.
   */
  function RemovePair(s: string, a: char, b: char): (r: string)
    ensures |r| <= |s|
    ensures forall ch :: ch in r ==> ch in s
  {
    if |s| >= 2 && s[0] == a && s[1] == b then
      RemovePair(s[2..], a, b)
    else if |s| == 0 then []
    else
      var r := RemovePair(s[1..], a, b);
      assert s == [s[0]] + s[1..];
      [s[0]] + r
  }

  /** `replaceAll` leaves the string as it was exactly when the pair does not occur. */
  lemma {:induction false} RemovePairUnchanged(s: string, a: char, b: char)
    ensures RemovePair(s, a, b) == s <==> !HasPair(s, a, b)
    decreases |s|
  {
    if |s| >= 2 && s[0] == a && s[1] == b {
      assert HasPair(s, a, b) by {
        assert s[0] == a && s[1] == b;
      }
    } else if |s| > 0 {
      RemovePairUnchanged(s[1..], a, b);
      assert HasPair(s[1..], a, b) ==> HasPair(s, a, b) by {
        if HasPair(s[1..], a, b) {
          var i :| 0 <= i < |s[1..]| - 1 && s[1..][i] == a && s[1..][i + 1] == b;
          assert s[i + 1] == a && s[i + 2] == b;
        }
      }
      assert HasPair(s, a, b) ==> HasPair(s[1..], a, b) by {
        if HasPair(s, a, b) {
          var i :| 0 <= i < |s| - 1 && s[i] == a && s[i + 1] == b;
          assert i != 0;
          assert s[1..][i - 1] == a && s[1..][i] == b;
        }
      }
      assert s == [s[0]] + s[1..];
    }
  }

  /**
   * The scan deletes the first occurrence in place: when no occurrence
   * starts inside `x` (not even one whose `a` is the last character of `x`),
   * the result keeps `x` and goes on after the deleted pair.
   */
  lemma {:induction false} RemovePairFirst(x: string, y: string, a: char, b: char)
    requires !HasPair(x + [a], a, b)
    ensures RemovePair(x + [a, b] + y, a, b) == x + RemovePair(y, a, b)
    decreases |x|, 1
  {
    if |x| == 0 {
      assert (x + [a, b] + y)[2..] == y;
    } else {
      RemovePairFirstNext(x, y, a, b);
    }
  }

  /** The first character of `x` is kept, and the scan goes on in the rest of `x`. */
  lemma {:induction false} RemovePairFirstNext(x: string, y: string, a: char, b: char)
    requires |x| > 0 && !HasPair(x + [a], a, b)
    ensures RemovePair(x + [a, b] + y, a, b) == x + RemovePair(y, a, b)
    decreases |x|, 0
  {
    var s := x + [a, b] + y;
    NoPairShift(x, y, a, b);
    RemovePairStep(s, a, b);
    assert s[1..] == x[1..] + [a, b] + y;
    RemovePairFirst(x[1..], y, a, b);
    assert x + RemovePair(y, a, b) == [x[0]] + (x[1..] + RemovePair(y, a, b));
  }

  /** No occurrence starts at the front of `x`, nor anywhere in the rest of it. */
  lemma NoPairShift(x: string, y: string, a: char, b: char)
    requires |x| > 0 && !HasPair(x + [a], a, b)
    ensures !HasPair(x[1..] + [a], a, b)
    ensures var s := x + [a, b] + y; s[0] == x[0] && !(s[0] == a && s[1] == b)
  {
    var s := x + [a, b] + y;
    assert s[0] == (x + [a])[0];
    assert s[1] == (x + [a])[1];
    forall i | 0 <= i < |x[1..] + [a]| - 1
      ensures !((x[1..] + [a])[i] == a && (x[1..] + [a])[i + 1] == b)
    {
      assert (x[1..] + [a])[i] == (x + [a])[i + 1];
      assert (x[1..] + [a])[i + 1] == (x + [a])[i + 2];
    }
  }

  /** Away from an occurrence, the scan keeps the first character. */
  lemma RemovePairStep(s: string, a: char, b: char)
    requires |s| > 0 && !(|s| >= 2 && s[0] == a && s[1] == b)
    ensures RemovePair(s, a, b) == [s[0]] + RemovePair(s[1..], a, b)
  {
  }

  /** Text without an `a` holds no occurrence of a pair starting with `a`. */
  lemma NoPairWithout(s: string, a: char, b: char)
    requires a !in s
    ensures !HasPair(s, a, b)
  {
  }

  /** The one occurrence of the pair in otherwise `a`-free text is deleted. */
  lemma RemovePairOnce(x: string, y: string, a: char, b: char)
    requires a !in x && a !in y
    ensures RemovePair(x + [a, b] + y, a, b) == x + y
  {
    NoPairWithout(y, a, b);
    RemovePairUnchanged(y, a, b);
    RemovePairFirst(x, y, a, b);
  }

  /** An `a` followed by something other than `b` is not an occurrence. */
  lemma RemovePairKeeps(x: string, y: string, a: char, b: char, c: char)
    requires a !in x && a !in y && c != a && c != b
    ensures RemovePair(x + [a, c] + y, a, b) == x + [a, c] + y
  {
    var d := x + [a, c] + y;
    assert !HasPair(d, a, b);
    RemovePairUnchanged(d, a, b);
  }

  /** Drops one trailing carriage return, as the `\r?` of `/\r?\n/` does. */
  function DropCR(s: string): string
  {
    if |s| > 0 && s[|s| - 1] == '\r' then s[..|s| - 1] else s
  }

  /**
   * `s.split(/\r?\n/)`: splits at each line feed, taking a carriage return
   * that immediately precedes it along with the separator.
   */
  function SplitLines(s: string): (rows: seq<string>)
    ensures |rows| == Count(s, '\n') + 1
    ensures forall i :: 0 <= i < |rows| ==> '\n' !in rows[i]
    decreases |s|
  {
    var k := IndexOf(s, '\n');
    if k == -1 then
      CountAbsent(s, '\n');
      [s]
    else
      var rest := SplitLines(s[k + 1..]);
      assert s == s[..k] + ['\n'] + s[k + 1..];
      CountAppend(s[..k] + ['\n'], s[k + 1..], '\n');
      CountAppend(s[..k], ['\n'], '\n');
      CountAbsent(s[..k], '\n');
      assert Count(['\n'], '\n') == 1 by {
        assert ['\n'][1..] == [];
      }
      assert forall x :: x in DropCR(s[..k]) ==> x in s[..k];
      [DropCR(s[..k])] + rest
  }

  /** Rewrites every CRLF pair of `s` to a single LF. */
  function CrLfToLf(s: string): string
  {
    if |s| >= 2 && s[0] == '\r' && s[1] == '\n' then ['\n'] + CrLfToLf(s[2..])
    else if |s| == 0 then []
    else [s[0]] + CrLfToLf(s[1..])
  }

  /** A string without line feeds has no CRLF pair to rewrite. */
  lemma {:induction false} CrLfToLfNoLf(x: string)
    requires '\n' !in x
    ensures CrLfToLf(x) == x
    decreases |x|
  {
    if |x| > 0 {
      assert x[1..] == [] || x[1] != '\n';
      assert forall ch :: ch in x[1..] ==> ch in x;
      CrLfToLfNoLf(x[1..]);
    }
  }

  lemma {:induction false} CrLfToLfLine(x: string, b: string)
    requires '\n' !in x
    ensures CrLfToLf(x + ['\n'] + b) == DropCR(x) + ['\n'] + CrLfToLf(b)
    decreases |x|, 1
  {
    var s := x + ['\n'] + b;
    if |x| == 0 {
      assert s == ['\n'] + b;
      assert s[1..] == b;
    } else if |x| == 1 && x[0] == '\r' {
      assert s[0] == '\r' && s[1] == '\n';
      assert s[2..] == b;
    } else {
      CrLfToLfLineNext(x, b);
    }
  }

  /** The first character of a line that is not its final `\r` is kept. */
  lemma {:induction false} CrLfToLfLineNext(x: string, b: string)
    requires '\n' !in x && |x| > 0 && !(|x| == 1 && x[0] == '\r')
    ensures CrLfToLf(x + ['\n'] + b) == DropCR(x) + ['\n'] + CrLfToLf(b)
    decreases |x|, 0
  {
    var s := x + ['\n'] + b;
    var y := x[1..];
    assert '\n' !in y && (|x| >= 2 ==> x[1] != '\n') by {
      SliceChars(x, 1, |x|);
    }
    assert s[1..] == y + ['\n'] + b;
    assert !(s[0] == '\r' && s[1] == '\n') by {
      assert s[0] == x[0];
      assert |x| >= 2 ==> s[1] == x[1];
    }
    CrLfToLfStep(s);
    CrLfToLfLine(y, b);
    DropCRCons(x);
  }

  /** Away from a CRLF pair, the first character is kept. */
  lemma CrLfToLfStep(s: string)
    requires |s| > 0 && !(|s| >= 2 && s[0] == '\r' && s[1] == '\n')
    ensures CrLfToLf(s) == [s[0]] + CrLfToLf(s[1..])
  {
  }

  /** Dropping a final `\r` keeps the first character of a longer string. */
  lemma DropCRCons(x: string)
    requires |x| > 0 && !(|x| == 1 && x[0] == '\r')
    ensures DropCR(x) == [x[0]] + DropCR(x[1..])
  {
    if |x| > 1 {
      assert x[1..][..|x| - 2] == x[1..|x| - 1];
    }
  }

  /**
   * Joining the rows `SplitLines` produces with line feeds gives back `s`
   * with its CRLF line breaks normalised to LF: no character other than the
   * `\r` of a CRLF is lost.
   */
  lemma {:induction false} SplitLinesJoin(s: string)
    ensures Join(SplitLines(s), '\n') == CrLfToLf(s)
    decreases |s|
  {
    var k := IndexOf(s, '\n');
    if k == -1 {
      var rows := SplitLines(s);
      assert rows == [s];
      CrLfToLfNoLf(s);
    } else {
      assert s == s[..k] + ['\n'] + s[k + 1..];
      CrLfToLfLine(s[..k], s[k + 1..]);
      SplitLinesJoin(s[k + 1..]);
      var rows := SplitLines(s);
      assert rows == [DropCR(s[..k])] + SplitLines(s[k + 1..]);
      assert |SplitLines(s[k + 1..])| >= 1;
    }
  }

  /** `s.startsWith("//")`. */
  predicate IsComment(s: string)
  {
    "//" <= s
  }
}

=== FILE: judge.dfy ===
/**
 * Judging player input: the edge-triggered lane bitmask of the player sprite,
 * `validateNote`'s scan of the active notes against the `NOTETIMINGS`
 * windows, and `updateHeldNotes`' per-frame sustain of hit holds.
 */
module Judge {
  import opened Results
  import opened ChartParser
  import opened Playfield

  /** `Scene_RPGmania.NOTETIMINGS`, in seconds of timing error. */
  const MISS_WINDOW: real := 0.1
  const BAD_WINDOW: real := 0.1
  const GOOD_WINDOW: real := 0.06
  const GREAT_WINDOW: real := 0.04
  const PERFECT_WINDOW: real := 0.01

  /** Score per held-down hold per frame while its lane stays pressed. */
  const SUSTAIN_POINTS: int := 10

  /** The song clock: seconds since the song started, and the song's length. */
  datatype Clock = Clock(now: real, duration: real)

  /** A lane bitmask: bit `l` stands for lane `l`. */
  type Bits = bv4

  /** `1 << l`. */
  function LaneBit(l: Lane): Bits
  {
    (1 as bv4) << l
  }

  predicate Has(bits: Bits, l: Lane)
  {
    bits & LaneBit(l) != 0
  }

  /** Clearing a lane's bit (`bits &= ~(1 << l)`) removes that lane and no other. */
  lemma ClearBit(bits: Bits, l: Lane)
    ensures forall k: Lane :: Has(bits & !LaneBit(l), k) <==> Has(bits, k) && k != l
  {
    forall k: Lane
      ensures Has(bits & !LaneBit(l), k) <==> Has(bits, k) && k != l
    {
      assert LaneBit(0) == 1 && LaneBit(1) == 2 && LaneBit(2) == 4 && LaneBit(3) == 8;
    }
  }

  /**
   * The pressed-lanes bitmask built from `Input.isPressed` for left, down, up
   * and right: bit `l` is set exactly when key `l` is down.
   */
  function PressedBits(keys: seq<bool>): (r: Bits)
    requires |keys| == 4
    ensures forall l: Lane :: Has(r, l) <==> keys[l]
  {
    var b0: bv4 := if keys[0] then 1 else 0;
    var b1: bv4 := if keys[1] then 2 else 0;
    var b2: bv4 := if keys[2] then 4 else 0;
    var b3: bv4 := if keys[3] then 8 else 0;
    assert LaneBit(0) == 1 && LaneBit(1) == 2 && LaneBit(2) == 4 && LaneBit(3) == 8;
    b0 | b1 | b2 | b3
  }

  /**
   * `pressedBitmap & ~this._prevNoteBitmap`: the lanes pressed this frame
   * that were not pressed in the previous one.
   */
  function Edges(pressed: Bits, prev: Bits): (r: Bits)
    ensures forall l: Lane :: Has(r, l) <==> Has(pressed, l) && !Has(prev, l)
  {
    assert LaneBit(0) == 1 && LaneBit(1) == 2 && LaneBit(2) == 4 && LaneBit(3) == 8;
    pressed & !prev
  }

  /** Holding keys down across frames produces no new edges. */
  lemma HeldKeysGiveNoEdges(pressed: Bits)
    ensures Edges(pressed, pressed) == 0
  {
  }

  function Abs(x: real): real
  {
    if x < 0.0 then -x else x
  }

  /**
   * The rank the if-chain of `validateNote` gives a hit with absolute timing
   * error `timing`: a mistimed hit beyond the Bad window, then Bad, Good,
   * Great and Perfect by ever tighter windows.
   */
  function RankOf(timing: real): (rank: nat)
    ensures rank <= PERFECT
    ensures rank == MISS <==> timing > BAD_WINDOW
    ensures rank == BAD <==> GOOD_WINDOW < timing <= BAD_WINDOW
    ensures rank == GOOD <==> GREAT_WINDOW < timing <= GOOD_WINDOW
    ensures rank == GREAT <==> PERFECT_WINDOW < timing <= GREAT_WINDOW
    ensures rank == PERFECT <==> timing <= PERFECT_WINDOW
  {
    if timing > BAD_WINDOW then MISS
    else if timing > GOOD_WINDOW then BAD
    else if timing > GREAT_WINDOW then GOOD
    else if timing > PERFECT_WINDOW then GREAT
    else PERFECT
  }

  /** A more accurate hit never earns a worse rank. */
  lemma RankMonotone(t1: real, t2: real)
    requires t1 <= t2
    ensures RankOf(t2) <= RankOf(t1)
  {
  }

  /** The score change of each rank. */
  function Points(rank: nat): int
    requires rank <= PERFECT
  {
    [-10, 100, 200, 500, 1000][rank]
  }

  /** One judged note, its absolute timing error in seconds, and its rank. */
  datatype Hit = Hit(note: Note, timing: real, rank: nat)

  /**
   * Which notes `validateNote` looks at. As written, `note.time && !note.missed`
   * also skips a note whose song fraction is 0, the first row of the first
   * measure; the evident intent is every note not yet missed.
   */
  datatype Guard = TruthyTime | AnyTime

  predicate Considered(n: Note, g: Guard)
  {
    (g == AnyTime || n.time != 0.0) && !n.missed
  }

  /** Seconds until the note is due (negative once it has passed). */
  function Offset(n: Note, c: Clock): real
  {
    n.time * c.duration - c.now
  }

  /** What makes a hit: a considered note inside the Miss window, in a lane of `bits`, rated by its error. */
  predicate ValidHit(h: Hit, bits: Bits, c: Clock, g: Guard)
  {
    && Considered(h.note, g)
    && Abs(Offset(h.note, c)) < MISS_WINDOW
    && Has(bits, h.note.lane)
    && h.timing == Abs(Offset(h.note, c))
    && h.rank == RankOf(h.timing)
  }

  predicate DistinctLanes(hits: seq<Hit>)
  {
    forall i, j :: 0 <= i < j < |hits| ==> hits[i].note.lane != hits[j].note.lane
  }

  /** The notes a scan keeps on the playfield and the hits it judges. */
  datatype Scanned = Scanned(kept: seq<Note>, hits: seq<Hit>)

  /** What the loop of `validateNote` does with the note it is looking at. */
  datatype Verdict = Stop | Take | Pass

  /**
   * A considered note due `MISS` seconds or more ahead stops the loop; a
   * considered note inside the window whose lane bit is still set is judged;
   * every other note is passed over.
   */
  function Classify(n: Note, bits: Bits, c: Clock, g: Guard): Verdict
  {
    if Considered(n, g) && Offset(n, c) >= MISS_WINDOW then Stop
    else if Considered(n, g) && Abs(Offset(n, c)) < MISS_WINDOW && Has(bits, n.lane) then Take
    else Pass
  }

  /** The hit a judged note makes: its absolute timing error and that error's rank. */
  function HitOf(n: Note, c: Clock): Hit
  {
    Hit(n, Abs(Offset(n, c)), RankOf(Abs(Offset(n, c))))
  }

  /** A note the loop takes makes a valid hit. */
  lemma TakeIsValid(n: Note, bits: Bits, c: Clock, g: Guard)
    requires Classify(n, bits, c, g) == Take
    ensures ValidHit(HitOf(n, c), bits, c, g)
  {
  }

  /** A hit valid for a bitmask with one lane cleared is valid for the whole bitmask. */
  lemma ValidHitWider(h: Hit, bits: Bits, l: Lane, c: Clock, g: Guard)
    requires ValidHit(h, bits & !LaneBit(l), c, g)
    ensures ValidHit(h, bits, c, g) && h.note.lane != l
  {
    ClearBit(bits, l);
  }

  /**
   * The loop of `validateNote`: walks the active notes front to back; stops
   * at the first considered note due `MISS` seconds or more ahead; judges a
   * considered note within the window whose lane bit is still set, clearing
   * that bit; keeps every other note. Its properties are the lemmas below.
   */
  function Scan(notes: seq<Note>, bits: Bits, c: Clock, g: Guard): (r: Scanned)
    ensures |r.kept| + |r.hits| == |notes|
    ensures bits == 0 ==> r == Scanned(notes, [])
    decreases |notes|
  {
    if |notes| == 0 then Scanned([], [])
    else
      var n := notes[0];
      match Classify(n, bits, c, g)
      case Stop => Scanned(notes, [])
      case Take =>
        var r := Scan(notes[1..], bits & !LaneBit(n.lane), c, g);
        Scanned(r.kept, [HitOf(n, c)] + r.hits)
      case Pass =>
        var r := Scan(notes[1..], bits, c, g);
        assert bits == 0 ==> [n] + r.kept == notes;
        Scanned([n] + r.kept, r.hits)
  }

  /** A scan keeps only notes it was given. */
  lemma {:induction false} ScanKept(notes: seq<Note>, bits: Bits, c: Clock, g: Guard)
    ensures forall x :: x in Scan(notes, bits, c, g).kept ==> x in notes
    decreases |notes|
  {
    if |notes| > 0 {
      var n := notes[0];
      assert notes == [n] + notes[1..];
      match Classify(n, bits, c, g)
      case Stop =>
      case Take => ScanKept(notes[1..], bits & !LaneBit(n.lane), c, g);
      case Pass => ScanKept(notes[1..], bits, c, g);
    }
  }

  /** A scan judges only valid hits, on notes it was given. */
  lemma {:induction false} ScanFrom(notes: seq<Note>, bits: Bits, c: Clock, g: Guard)
    ensures forall i :: 0 <= i < |Scan(notes, bits, c, g).hits| ==>
              Scan(notes, bits, c, g).hits[i].note in notes && ValidHit(Scan(notes, bits, c, g).hits[i], bits, c, g)
    decreases |notes|
  {
    if |notes| > 0 {
      var n := notes[0];
      assert notes == [n] + notes[1..];
      match Classify(n, bits, c, g)
      case Stop =>
      case Take =>
        var rest := bits & !LaneBit(n.lane);
        ScanFrom(notes[1..], rest, c, g);
        TakeIsValid(n, bits, c, g);
        var hs := Scan(notes[1..], rest, c, g).hits;
        forall i | 0 <= i < |hs|
          ensures ValidHit(hs[i], bits, c, g)
        {
          ValidHitWider(hs[i], bits, n.lane, c, g);
        }
      case Pass => ScanFrom(notes[1..], bits, c, g);
    }
  }

  /** Clearing each judged lane's bit lets every lane resolve at most one note per scan. */
  lemma {:induction false} ScanDistinct(notes: seq<Note>, bits: Bits, c: Clock, g: Guard)
    ensures DistinctLanes(Scan(notes, bits, c, g).hits)
    decreases |notes|
  {
    if |notes| > 0 {
      var n := notes[0];
      match Classify(n, bits, c, g)
      case Stop =>
      case Take =>
        var rest := bits & !LaneBit(n.lane);
        ScanDistinct(notes[1..], rest, c, g);
        ScanFrom(notes[1..], rest, c, g);
        var hs := Scan(notes[1..], rest, c, g).hits;
        forall i | 0 <= i < |hs|
          ensures hs[i].note.lane != n.lane
        {
          ValidHitWider(hs[i], bits, n.lane, c, g);
        }
      case Pass => ScanDistinct(notes[1..], bits, c, g);
    }
  }

  /** Every judged note leaves the count of pending notes. */
  lemma {:induction false} ScanPending(notes: seq<Note>, bits: Bits, c: Clock, g: Guard)
    ensures Pending(notes) == Pending(Scan(notes, bits, c, g).kept) + |Scan(notes, bits, c, g).hits|
    decreases |notes|
  {
    if |notes| > 0 {
      var n := notes[0];
      match Classify(n, bits, c, g)
      case Stop =>
      case Take =>
        ScanPending(notes[1..], bits & !LaneBit(n.lane), c, g);
      case Pass =>
        var r := Scan(notes[1..], bits, c, g);
        ScanPending(notes[1..], bits, c, g);
        assert ([n] + r.kept)[1..] == r.kept;
    }
  }

  lemma SortedTail(notes: seq<Note>)
    requires |notes| > 0 && Sorted(notes)
    ensures Sorted(notes[1..])
    ensures forall i :: 0 <= i < |notes[1..]| ==> notes[0].time <= notes[1..][i].time
  {
    forall i | 0 <= i < |notes[1..]|
      ensures notes[0].time <= notes[1..][i].time
    {
      SortedPairs(notes, 0, i + 1);
    }
  }

  lemma SortedCons(n: Note, s: seq<Note>)
    requires Sorted(s) && forall x :: x in s ==> n.time <= x.time
    ensures Sorted([n] + s)
  {
    var t := [n] + s;
    forall i | 0 < i < |t|
      ensures t[i - 1].time <= t[i].time
    {
      assert t[i] == s[i - 1];
      if i > 1 {
        assert t[i - 1] == s[i - 2];
      }
    }
  }

  /** Removing judged notes keeps the active list in time order. */
  lemma {:induction false} ScanSorted(notes: seq<Note>, bits: Bits, c: Clock, g: Guard)
    ensures Sorted(notes) ==> Sorted(Scan(notes, bits, c, g).kept)
    decreases |notes|
  {
    if |notes| > 0 && Sorted(notes) {
      var n := notes[0];
      SortedTail(notes);
      match Classify(n, bits, c, g)
      case Stop =>
      case Take =>
        ScanSorted(notes[1..], bits & !LaneBit(n.lane), c, g);
      case Pass =>
        var r := Scan(notes[1..], bits, c, g);
        ScanSorted(notes[1..], bits, c, g);
        ScanKept(notes[1..], bits, c, g);
        SortedCons(n, r.kept);
    }
  }

  /**
   * A reference scan without the early exit: every considered note within
   * the window whose lane bit is still free is judged.
   */
  function ScanAll(notes: seq<Note>, bits: Bits, c: Clock, g: Guard): Scanned
    decreases |notes|
  {
    if |notes| == 0 then Scanned([], [])
    else
      var n := notes[0];
      if Considered(n, g) && Abs(Offset(n, c)) < MISS_WINDOW && Has(bits, n.lane) then
        var r := ScanAll(notes[1..], bits & !LaneBit(n.lane), c, g);
        Scanned(r.kept, [HitOf(n, c)] + r.hits)
      else
        var r := ScanAll(notes[1..], bits, c, g);
        Scanned([n] + r.kept, r.hits)
  }

  lemma {:induction false} ScanAllNothingInReach(notes: seq<Note>, bits: Bits, c: Clock, g: Guard, floor: real)
    requires c.duration > 0.0
    requires floor * c.duration - c.now >= MISS_WINDOW
    requires forall i :: 0 <= i < |notes| ==> floor <= notes[i].time
    ensures ScanAll(notes, bits, c, g) == Scanned(notes, [])
    decreases |notes|
  {
    if |notes| > 0 {
      var n := notes[0];
      assert Offset(n, c) >= MISS_WINDOW by {
        LaterIsFurther(floor, n.time, c);
      }
      ScanAllNothingInReach(notes[1..], bits, c, g, floor);
      assert notes == [n] + notes[1..];
    }
  }

  /** A later note is due later. */
  lemma LaterIsFurther(t1: real, t2: real, c: Clock)
    requires t1 <= t2 && c.duration > 0.0
    ensures t1 * c.duration - c.now <= t2 * c.duration - c.now
  {
    assert (t2 - t1) * c.duration >= 0.0;
  }

  /**
   * On a time-ordered list the early exit of `validateNote` changes nothing:
   * once one note is out of reach every later one is too.
   */
  lemma {:induction false} ScanEarlyExitIsSafe(notes: seq<Note>, bits: Bits, c: Clock, g: Guard)
    requires Sorted(notes) && c.duration > 0.0
    ensures Scan(notes, bits, c, g) == ScanAll(notes, bits, c, g)
    decreases |notes|
  {
    if |notes| > 0 {
      var n := notes[0];
      SortedTail(notes);
      match Classify(n, bits, c, g)
      case Stop =>
        ScanAllNothingInReach(notes, bits, c, g, n.time);
      case Take =>
        ScanEarlyExitIsSafe(notes[1..], bits & !LaneBit(n.lane), c, g);
      case Pass =>
        ScanEarlyExitIsSafe(notes[1..], bits, c, g);
    }
  }

  /**
   * As written, a note at song fraction 0, which the first row of the first
   * measure produces, is never judged, even for a press exactly on time; the
   * intended guard judges it as Perfect.
   */
  lemma ZeroTimeNoteNeverJudged()
    ensures Scan([Note(0, 0.0, false, false, None)], 1, Clock(0.0, 60.0), TruthyTime).hits == []
    ensures Scan([Note(0, 0.0, false, false, None)], 1, Clock(0.0, 60.0), AnyTime).hits ==
            [Hit(Note(0, 0.0, false, false, None), 0.0, PERFECT)]
  {
    var n := Note(0, 0.0, false, false, None);
    var c := Clock(0.0, 60.0);
    assert [n][1..] == [];
    assert Offset(n, c) == 0.0 && RankOf(0.0) == PERFECT;
    assert LaneBit(0) == 1 && Has(1, 0);
    assert Classify(n, 1, c, TruthyTime) == Pass;
    assert Classify(n, 1, c, AnyTime) == Take;
    assert Scan([n], 1, c, TruthyTime) == Scanned([n] + Scan([], 1, c, TruthyTime).kept, []);
    assert Scan([n], 1, c, AnyTime).hits == [HitOf(n, c)] + Scan([], 0, c, AnyTime).hits;
  }

  /**
   * With the intended guard the front note is judged whenever it is not yet
   * missed, lies inside the Miss window and its lane is pressed, whatever its
   * song fraction.
   */
  lemma FrontNoteJudged(notes: seq<Note>, bits: Bits, c: Clock)
    requires |notes| > 0 && !notes[0].missed
    requires Abs(Offset(notes[0], c)) < MISS_WINDOW && Has(bits, notes[0].lane)
    ensures |Scan(notes, bits, c, AnyTime).hits| > 0
    ensures Scan(notes, bits, c, AnyTime).hits[0].note == notes[0]
    ensures Scan(notes, bits, c, AnyTime).hits[0].rank == RankOf(Abs(Offset(notes[0], c)))
  {
    assert Classify(notes[0], bits, c, AnyTime) == Take;
  }

  /**
   * One hit's effect on the counters, as the branches of `validateNote` apply
   * it: one more of its rank, its rank's points, and the combo.
   */
  function Credit(t: Tally, h: Hit): (r: Tally)
    requires |t.rankings| == 5 && h.rank <= PERFECT
    ensures |r.rankings| == 5
    ensures r.rankings == t.rankings[h.rank := t.rankings[h.rank] + 1]
    ensures r.score == t.score + Points(h.rank)
    ensures r.combo == if h.rank == MISS then 0 else t.combo + 1
    ensures r.highestCombo == Max(t.highestCombo, r.combo)
  {
    var b := Bump(t, h.rank, 1);
    var c := if h.rank == MISS then b.(score := b.score + Points(MISS), combo := 0)
             else b.(score := b.score + Points(h.rank), combo := b.combo + 1);
    c.(highestCombo := if c.highestCombo < c.combo then c.combo else c.highestCombo)
  }

  function TotalPoints(hits: seq<Hit>): int
    requires forall i :: 0 <= i < |hits| ==> hits[i].rank <= PERFECT
  {
    if |hits| == 0 then 0 else Points(hits[0].rank) + TotalPoints(hits[1..])
  }

  function Max(a: int, b: int): int
  {
    if a < b then b else a
  }

  /** How many of the hits have rank `k`. */
  function CountRank(hits: seq<Hit>, k: nat): nat
  {
    if |hits| == 0 then 0 else (if hits[0].rank == k then 1 else 0) + CountRank(hits[1..], k)
  }

  /**
   * The counters after a run of hits none of which is a mistimed one: each
   * hit adds one to its rank's count and to the combo, and its rank's points
   * to the score; the record combo follows.
   */
  function CreditAll(t: Tally, hits: seq<Hit>): (r: Tally)
    requires |t.rankings| == 5 && t.combo <= t.highestCombo
    requires forall i :: 0 <= i < |hits| ==> BAD <= hits[i].rank <= PERFECT
    ensures |r.rankings| == 5
    ensures Sum(r.rankings) == Sum(t.rankings) + |hits|
    ensures r.rankings[MISS] == t.rankings[MISS]
    ensures forall k :: 0 <= k < 5 ==> r.rankings[k] == t.rankings[k] + CountRank(hits, k)
    ensures r.score == t.score + TotalPoints(hits)
    ensures r.score >= t.score
    ensures r.combo == t.combo + |hits|
    ensures r.highestCombo == Max(t.highestCombo, t.combo + |hits|)
    decreases |hits|
  {
    if |hits| == 0 then t
    else CreditAll(Credit(t, hits[0]), hits[1..])
  }

  /** Some hit note starts hold `h`. */
  predicate LinksHold(hits: seq<Hit>, h: nat)
  {
    exists i :: 0 <= i < |hits| && hits[i].note.hold == Some(h)
  }

  lemma LinksHoldCons(hits: seq<Hit>)
    requires |hits| > 0
    ensures forall h: nat :: LinksHold(hits, h) <==> hits[0].note.hold == Some(h) || LinksHold(hits[1..], h)
  {
    forall h: nat
      ensures LinksHold(hits, h) <==> hits[0].note.hold == Some(h) || LinksHold(hits[1..], h)
    {
      if LinksHold(hits, h) {
        var i :| 0 <= i < |hits| && hits[i].note.hold == Some(h);
        if i > 0 {
          assert hits[1..][i - 1] == hits[i];
        }
      }
      if LinksHold(hits[1..], h) {
        var i :| 0 <= i < |hits[1..]| && hits[1..][i].note.hold == Some(h);
        assert hits[i + 1] == hits[1..][i];
      }
    }
  }

  /**
   * Marks the hold of every hit note as held down: a hold ends up held down
   * exactly when it already was or a hit note starts it; nothing else about
   * any hold changes.
   */
  function MarkHeld(holds: seq<Hold>, hits: seq<Hit>): (r: seq<Hold>)
    ensures |r| == |holds|
    ensures forall i :: 0 <= i < |hits| && hits[i].note.hold.Some? && hits[i].note.hold.value < |holds| ==>
              r[hits[i].note.hold.value].heldDown
    ensures forall h :: 0 <= h < |holds| ==> (r[h].heldDown <==> holds[h].heldDown || LinksHold(hits, h))
    ensures forall h :: 0 <= h < |holds| ==>
              r[h].lane == holds[h].lane && r[h].time == holds[h].time && r[h].tail == holds[h].tail
    decreases |hits|
  {
    if |hits| == 0 then holds
    else
      var link := hits[0].note.hold;
      var next := if link.Some? && link.value < |holds|
                  then holds[link.value := holds[link.value].(heldDown := true)]
                  else holds;
      LinksHoldCons(hits);
      MarkHeld(next, hits[1..])
  }

  /** What `validateNote` leaves behind: the counters, the pool, and the notes it judged. */
  datatype Judged = Judged(tally: Tally, pool: Pool, hits: seq<Hit>)

  /**
   * `validateNote(noteBitmap)`: every judged note leaves the playfield and
   * adds one to a Bad..Perfect count, never to the Miss count (the Miss
   * window equals the Bad window, so the -10 branch cannot be reached); each
   * lane of the bitmask resolves at most one note; a hit note's hold is held
   * down from then on. `g` is the loop's guard: `TruthyTime` as written,
   * `AnyTime` as intended.
   */
  function ValidateNote(t: Tally, p: Pool, bits: Bits, c: Clock, g: Guard): (r: Judged)
    requires TallyOk(t)
    ensures forall i :: 0 <= i < |r.hits| ==> r.hits[i].note in p.active && ValidHit(r.hits[i], bits, c, g)
    ensures forall i :: 0 <= i < |r.hits| ==> BAD <= r.hits[i].rank <= PERFECT
    ensures r.pool.cursor == p.cursor && r.pool.held == p.held && r.pool.lastHold == p.lastHold
    ensures |r.pool.holds| == |p.holds|
    ensures TallyOk(r.tally)
    ensures Sum(r.tally.rankings) == Sum(t.rankings) + |r.hits|
    ensures r.tally.rankings[MISS] == t.rankings[MISS]
    ensures forall k :: 0 <= k < 5 ==> r.tally.rankings[k] == t.rankings[k] + CountRank(r.hits, k)
    ensures r.tally.score == t.score + TotalPoints(r.hits)
    ensures r.tally.combo == t.combo + |r.hits|
    ensures r.tally.highestCombo == Max(t.highestCombo, t.combo + |r.hits|)
    ensures bits == 0 ==> r == Judged(t, p, [])
  {
    var s := Scan(p.active, bits, c, g);
    ScanFrom(p.active, bits, c, g);
    assert forall i :: 0 <= i < |s.hits| ==> BAD <= s.hits[i].rank <= PERFECT by {
      forall i | 0 <= i < |s.hits|
        ensures BAD <= s.hits[i].rank <= PERFECT
      {
        assert ValidHit(s.hits[i], bits, c, g);
      }
    }
    var holds := MarkHeld(p.holds, s.hits);
    assert s.hits == [] ==> holds == p.holds;
    Judged(CreditAll(t, s.hits), p.(active := s.kept, holds := holds), s.hits)
  }

  /** The notes of a run of hits, in order. */
  function HitNotes(hits: seq<Hit>): (notes: seq<Note>)
    ensures |notes| == |hits|
    ensures forall i :: 0 <= i < |hits| ==> notes[i] == hits[i].note
  {
    if |hits| == 0 then [] else [hits[0].note] + HitNotes(hits[1..])
  }

  /** A scan splits the notes it is given between those it keeps and those it judges. */
  lemma {:induction false} ScanSplits(notes: seq<Note>, bits: Bits, c: Clock, g: Guard)
    ensures multiset(notes) == multiset(Scan(notes, bits, c, g).kept) + multiset(HitNotes(Scan(notes, bits, c, g).hits))
    decreases |notes|, 1
  {
    if |notes| > 0 {
      match Classify(notes[0], bits, c, g)
      case Stop =>
        assert HitNotes([]) == [];
      case Take =>
        ScanSplitsTake(notes, bits, c, g);
      case Pass =>
        ScanSplitsPass(notes, bits, c, g);
    }
  }

  lemma {:induction false} ScanSplitsTake(notes: seq<Note>, bits: Bits, c: Clock, g: Guard)
    requires |notes| > 0 && Classify(notes[0], bits, c, g) == Take
    ensures multiset(notes) == multiset(Scan(notes, bits, c, g).kept) + multiset(HitNotes(Scan(notes, bits, c, g).hits))
    decreases |notes|, 0
  {
    var n := notes[0];
    var b := bits & !LaneBit(n.lane);
    ScanSplits(notes[1..], b, c, g);
    var r := Scan(notes[1..], b, c, g);
    assert Scan(notes, bits, c, g) == Scanned(r.kept, [HitOf(n, c)] + r.hits);
    SplitTake(notes, r.kept, r.hits, HitOf(n, c));
  }

  lemma {:induction false} ScanSplitsPass(notes: seq<Note>, bits: Bits, c: Clock, g: Guard)
    requires |notes| > 0 && Classify(notes[0], bits, c, g) == Pass
    ensures multiset(notes) == multiset(Scan(notes, bits, c, g).kept) + multiset(HitNotes(Scan(notes, bits, c, g).hits))
    decreases |notes|, 0
  {
    var n := notes[0];
    ScanSplits(notes[1..], bits, c, g);
    var r := Scan(notes[1..], bits, c, g);
    assert Scan(notes, bits, c, g) == Scanned([n] + r.kept, r.hits);
    SplitPass(notes, r.kept, r.hits);
  }

  /** Judging the first note moves it from the notes to the hits. */
  lemma SplitTake(notes: seq<Note>, kept: seq<Note>, hits: seq<Hit>, h: Hit)
    requires |notes| > 0 && h.note == notes[0]
    requires multiset(notes[1..]) == multiset(kept) + multiset(HitNotes(hits))
    ensures multiset(notes) == multiset(kept) + multiset(HitNotes([h] + hits))
  {
    assert notes == [notes[0]] + notes[1..];
    assert ([h] + hits)[1..] == hits;
    assert HitNotes([h] + hits) == [notes[0]] + HitNotes(hits);
  }

  /** Passing over the first note keeps it. */
  lemma SplitPass(notes: seq<Note>, kept: seq<Note>, hits: seq<Hit>)
    requires |notes| > 0
    requires multiset(notes[1..]) == multiset(kept) + multiset(HitNotes(hits))
    ensures multiset(notes) == multiset([notes[0]] + kept) + multiset(HitNotes(hits))
  {
    assert notes == [notes[0]] + notes[1..];
  }

  /**
   * What `validateNote` leaves on the playfield: the judged notes, one per
   * lane, are exactly the ones removed, the rest keep their order, and a
   * hold is held down exactly when it was or a judged note starts it.
   */
  lemma ValidateNoteRemovesHits(t: Tally, p: Pool, bits: Bits, c: Clock, g: Guard)
    requires TallyOk(t)
    ensures DistinctLanes(ValidateNote(t, p, bits, c, g).hits)
    ensures multiset(p.active) ==
            multiset(ValidateNote(t, p, bits, c, g).pool.active) + multiset(HitNotes(ValidateNote(t, p, bits, c, g).hits))
    ensures |ValidateNote(t, p, bits, c, g).pool.active| + |ValidateNote(t, p, bits, c, g).hits| == |p.active|
    ensures forall x :: x in ValidateNote(t, p, bits, c, g).pool.active ==> x in p.active
    ensures Pending(p.active) == Pending(ValidateNote(t, p, bits, c, g).pool.active) + |ValidateNote(t, p, bits, c, g).hits|
    ensures Sorted(p.active) ==> Sorted(ValidateNote(t, p, bits, c, g).pool.active)
    ensures var r := ValidateNote(t, p, bits, c, g);
            forall i :: 0 <= i < |r.hits| && r.hits[i].note.hold.Some? && r.hits[i].note.hold.value < |p.holds| ==>
              r.pool.holds[r.hits[i].note.hold.value].heldDown
    ensures var r := ValidateNote(t, p, bits, c, g);
            forall h :: 0 <= h < |p.holds| ==> (r.pool.holds[h].heldDown <==> p.holds[h].heldDown || LinksHold(r.hits, h))
  {
    var r := ValidateNote(t, p, bits, c, g);
    var s := Scan(p.active, bits, c, g);
    assert r.hits == s.hits && r.pool.active == s.kept && r.pool.holds == MarkHeld(p.holds, s.hits);
    ScanKept(p.active, bits, c, g);
    ScanSplits(p.active, bits, c, g);
    ScanDistinct(p.active, bits, c, g);
    ScanPending(p.active, bits, c, g);
    ScanSorted(p.active, bits, c, g);
  }

  /** Within the Miss window, a considered note in lane `l`. */
  predicate InReach(n: Note, l: Lane, c: Clock, g: Guard)
  {
    n.lane == l && Considered(n, g) && Abs(Offset(n, c)) < MISS_WINDOW
  }

  /** The full scan judges the first note in reach of every lane whose bit is set. */
  lemma {:induction false} ScanAllTakesFirst(notes: seq<Note>, bits: Bits, c: Clock, g: Guard, l: Lane, i: nat)
    requires i < |notes| && Has(bits, l) && InReach(notes[i], l, c, g)
    requires forall k :: 0 <= k < i ==> !InReach(notes[k], l, c, g)
    ensures exists j :: 0 <= j < |ScanAll(notes, bits, c, g).hits| && ScanAll(notes, bits, c, g).hits[j].note == notes[i]
    decreases i
  {
    var n := notes[0];
    if i == 0 {
      assert ScanAll(notes, bits, c, g).hits[0].note == n;
    } else if Considered(n, g) && Abs(Offset(n, c)) < MISS_WINDOW && Has(bits, n.lane) {
      assert n.lane != l by {
        assert !InReach(notes[0], l, c, g);
      }
      var rest := bits & !LaneBit(n.lane);
      ClearBit(bits, n.lane);
      assert notes[1..][i - 1] == notes[i];
      ScanAllTakesFirst(notes[1..], rest, c, g, l, i - 1);
      var hs := ScanAll(notes[1..], rest, c, g).hits;
      var j :| 0 <= j < |hs| && hs[j].note == notes[i];
      assert ScanAll(notes, bits, c, g).hits[j + 1] == hs[j];
    } else {
      assert notes[1..][i - 1] == notes[i];
      ScanAllTakesFirst(notes[1..], bits, c, g, l, i - 1);
      var hs := ScanAll(notes[1..], bits, c, g).hits;
      var j :| 0 <= j < |hs| && hs[j].note == notes[i];
      assert ScanAll(notes, bits, c, g).hits[j] == hs[j];
    }
  }

  /**
   * On a time-ordered playfield, for every lane of the bitmask the first
   * note in reach in that lane is judged: `validateNote` misses no press it
   * could score.
   */
  lemma ValidateNoteTakesFirst(t: Tally, p: Pool, bits: Bits, c: Clock, g: Guard, l: Lane, i: nat)
    requires TallyOk(t) && Sorted(p.active) && c.duration > 0.0
    requires i < |p.active| && Has(bits, l) && InReach(p.active[i], l, c, g)
    requires forall k :: 0 <= k < i ==> !InReach(p.active[k], l, c, g)
    ensures exists j :: 0 <= j < |ValidateNote(t, p, bits, c, g).hits| && ValidateNote(t, p, bits, c, g).hits[j].note == p.active[i]
  {
    ScanEarlyExitIsSafe(p.active, bits, c, g);
    ScanAllTakesFirst(p.active, bits, c, g, l, i);
    var hs := ValidateNote(t, p, bits, c, g).hits;
    assert hs == Scan(p.active, bits, c, g).hits;
    var j :| 0 <= j < |hs| && hs[j].note == p.active[i];
  }

  /** Each lane of the bitmask resolves at most one note per call. */
  lemma {:induction false} HitsAtMostLanes(hits: seq<Hit>, bits: Bits, c: Clock, g: Guard)
    requires DistinctLanes(hits)
    requires forall i :: 0 <= i < |hits| ==> ValidHit(hits[i], bits, c, g)
    ensures |hits| <= 4
    ensures bits == 0 ==> |hits| == 0
  {
    var lanes := set i | 0 <= i < |hits| :: hits[i].note.lane;
    assert lanes <= {0, 1, 2, 3};
    LanesCount(hits);
    SubsetSize(lanes);
  }

  lemma {:induction false} LanesCount(hits: seq<Hit>)
    requires DistinctLanes(hits)
    ensures |set i | 0 <= i < |hits| :: hits[i].note.lane| == |hits|
    decreases |hits|
  {
    if |hits| > 0 {
      var rest := hits[1..];
      LanesCount(rest);
      var a := set i | 0 <= i < |rest| :: rest[i].note.lane;
      var b := set i | 0 <= i < |hits| :: hits[i].note.lane;
      assert b == a + {hits[0].note.lane} by {
        forall x | x in b ensures x in a + {hits[0].note.lane}
        {
          var i :| 0 <= i < |hits| && hits[i].note.lane == x;
          if i > 0 {
            assert rest[i - 1].note.lane == x;
          }
        }
        forall x | x in a ensures x in b
        {
          var i :| 0 <= i < |rest| && rest[i].note.lane == x;
          assert hits[i + 1].note.lane == x;
        }
      }
      forall i | 0 <= i < |rest|
        ensures rest[i].note.lane != hits[0].note.lane
      {
        assert rest[i] == hits[i + 1];
      }
    }
  }

  lemma SubsetSize(lanes: set<Lane>)
    requires lanes <= {0, 1, 2, 3}
    ensures |lanes| <= 4
  {
    var all: set<Lane> := {0, 1, 2, 3};
    assert |all| == 4;
    assert lanes <= all;
    SetSizeMonotone(lanes, all);
  }

  lemma {:induction false} SetSizeMonotone(a: set<Lane>, b: set<Lane>)
    requires a <= b
    ensures |a| <= |b|
    decreases |b|
  {
    if a != {} {
      var x :| x in a;
      SetSizeMonotone(a - {x}, b - {x});
    }
  }

  /** Number of the listed holds that are held down. */
  function HeldDownCount(ids: seq<nat>, holds: seq<Hold>): nat
    requires forall i :: 0 <= i < |ids| ==> ids[i] < |holds|
  {
    if |ids| == 0 then 0 else (if holds[ids[0]].heldDown then 1 else 0) + HeldDownCount(ids[1..], holds)
  }

  /** A held-down hold whose lane is no longer pressed. */
  predicate Released(h: Hold, pressed: Bits)
  {
    h.heldDown && !Has(pressed, h.lane)
  }

  /** The listed holds that stay: all but the released ones. */
  function KeepHeld(ids: seq<nat>, holds: seq<Hold>, pressed: Bits): (r: seq<nat>)
    requires forall i :: 0 <= i < |ids| ==> ids[i] < |holds|
    ensures forall i :: 0 <= i < |r| ==> r[i] < |holds|
    ensures forall id :: id in r <==> id in ids && !Released(holds[id], pressed)
    ensures |r| <= |ids|
  {
    if |ids| == 0 then []
    else
      var rest := KeepHeld(ids[1..], holds, pressed);
      assert ids == [ids[0]] + ids[1..];
      if Released(holds[ids[0]], pressed) then rest else [ids[0]] + rest
  }

  /**
   * `updateHeldNotes(heldBitmap)`: every held-down hold whose lane is still
   * pressed earns 10 points, every other held-down hold is released from
   * `_held`; holds whose head was not hit are left alone. So the score grows
   * by exactly 10 for each held-down hold that remains listed.
   */
  function UpdateHeldNotes(t: Tally, p: Pool, pressed: Bits): (r: (Tally, Pool))
    requires Linked(p)
    ensures r.1 == p.(held := r.1.held)
    ensures r.0 == t.(score := r.0.score)
    ensures Linked(r.1)
    ensures forall id :: id in r.1.held <==> id in p.held && !Released(p.holds[id], pressed)
    ensures r.0.score == t.score + SUSTAIN_POINTS * Sustained(p.held, p.holds, pressed)
    ensures r.0.score == t.score + SUSTAIN_POINTS * HeldDownCount(r.1.held, p.holds)
  {
    var kept := KeepHeld(p.held, p.holds, pressed);
    SustainPoints(p.held, p.holds, pressed);
    (t.(score := t.score + SUSTAIN_POINTS * HeldDownCount(kept, p.holds)), p.(held := kept))
  }

  /** Number of the listed holds that are held down with their lane pressed. */
  function Sustained(ids: seq<nat>, holds: seq<Hold>, pressed: Bits): nat
    requires forall i :: 0 <= i < |ids| ==> ids[i] < |holds|
  {
    if |ids| == 0 then 0
    else (if holds[ids[0]].heldDown && Has(pressed, holds[ids[0]].lane) then 1 else 0) + Sustained(ids[1..], holds, pressed)
  }

  /** Among the holds kept, the held-down ones are exactly those whose lane is pressed. */
  lemma {:induction false} SustainPoints(ids: seq<nat>, holds: seq<Hold>, pressed: Bits)
    requires forall i :: 0 <= i < |ids| ==> ids[i] < |holds|
    ensures HeldDownCount(KeepHeld(ids, holds, pressed), holds) == Sustained(ids, holds, pressed)
    decreases |ids|
  {
    if |ids| > 0 {
      var rest := ids[1..];
      SustainPoints(rest, holds, pressed);
      var kr := KeepHeld(rest, holds, pressed);
      if !Released(holds[ids[0]], pressed) {
        assert ([ids[0]] + kr)[1..] == kr;
      }
    }
  }
}

=== FILE: misses.dfy ===
/**
 * The pool manager's per-frame bookkeeping after spawning: notes whose
 * window has passed are marked missed, notes scrolled below the screen are
 * dropped (counting a miss for any not yet counted), hold bars the
 * presentation no longer draws are released, and the dancer takes a beat.
 */
module Misses {
  import opened Playfield
  import opened Judge

  /** Pixels per unit of song fraction (`this.SPEED`). */
  const SPEED: real := 60000.0
  /** `_playerY = boxHeight - 50`: the receptor line sits this far above the bottom. */
  const PLAYER_LIFT: real := 50.0
  /** A note is dropped once its centre is this far below the screen. */
  const CULL_MARGIN: real := 100.0

  /** A note nobody played, not yet missed, more than the Miss window late. */
  predicate TimedOut(n: Note, curP: real, total: real)
  {
    !n.played && !n.missed && (n.time - curP) * total <= -MISS_WINDOW
  }

  function TimedOutCount(notes: seq<Note>, curP: real, total: real): nat
  {
    if |notes| == 0 then 0 else (if TimedOut(notes[0], curP, total) then 1 else 0) + TimedOutCount(notes[1..], curP, total)
  }

  /** The `_active.forEach` pass: every timed-out note becomes missed, nothing else changes. */
  function MarkMissed(notes: seq<Note>, curP: real, total: real): (r: seq<Note>)
    ensures |r| == |notes|
    ensures forall i :: 0 <= i < |r| ==> r[i] == notes[i] || (TimedOut(notes[i], curP, total) && r[i] == notes[i].(missed := true))
    ensures forall i :: 0 <= i < |r| ==> !TimedOut(r[i], curP, total)
    ensures Pending(r) + TimedOutCount(notes, curP, total) == Pending(notes)
    ensures TimedOutCount(notes, curP, total) == 0 ==> r == notes
    decreases |notes|
  {
    if |notes| == 0 then []
    else
      var n := notes[0];
      var rest := MarkMissed(notes[1..], curP, total);
      var head := if TimedOut(n, curP, total) then n.(missed := true) else n;
      assert ([head] + rest)[1..] == rest;
      assert notes == [n] + notes[1..];
      [head] + rest
  }

  /**
   * The timeout miss: each timed-out note adds one to the Miss count and
   * breaks the combo; the score and the other counts stay.
   */
  function TimeoutMisses(t: Tally, notes: seq<Note>, curP: real, total: real): (r: (Tally, seq<Note>))
    requires TallyOk(t)
    ensures TallyOk(r.0)
    ensures r.0.rankings[MISS] == t.rankings[MISS] + TimedOutCount(notes, curP, total)
    ensures forall k :: MISS < k < 5 ==> r.0.rankings[k] == t.rankings[k]
    ensures r.0.score == t.score && r.0.highestCombo == t.highestCombo
    ensures r.0.combo == if TimedOutCount(notes, curP, total) > 0 then 0 else t.combo
    ensures Sum(r.0.rankings) + Pending(r.1) == Sum(t.rankings) + Pending(notes)
    ensures |r.1| == |notes|
    ensures forall i :: 0 <= i < |notes| ==>
              r.1[i].lane == notes[i].lane && r.1[i].time == notes[i].time && r.1[i].hold == notes[i].hold
    ensures forall i :: 0 <= i < |notes| ==> !TimedOut(r.1[i], curP, total)
  {
    var k := TimedOutCount(notes, curP, total);
    var b := Bump(t, MISS, k);
    (if k > 0 then b.(combo := 0) else b, MarkMissed(notes, curP, total))
  }

  /** A second pass at the same song position finds nothing more to count. */
  lemma TimeoutIdempotent(t: Tally, notes: seq<Note>, curP: real, total: real)
    requires TallyOk(t)
    ensures var once := TimeoutMisses(t, notes, curP, total);
            TimeoutMisses(once.0, once.1, curP, total) == once
  {
    var once := TimeoutMisses(t, notes, curP, total);
    NoneTimedOut(once.1, curP, total);
    assert once.0.rankings[MISS := once.0.rankings[MISS] + 0] == once.0.rankings;
  }

  lemma {:induction false} NoneTimedOut(notes: seq<Note>, curP: real, total: real)
    requires forall i :: 0 <= i < |notes| ==> !TimedOut(notes[i], curP, total)
    ensures TimedOutCount(notes, curP, total) == 0
    decreases |notes|
  {
    if |notes| > 0 {
      NoneTimedOut(notes[1..], curP, total);
    }
  }

  /** A missed note stays missed at every later song position: it is counted once. */
  lemma MissedNeverTimesOut(n: Note, curP: real, total: real)
    requires n.missed
    ensures !TimedOut(n, curP, total)
  {
  }

  /** Screen y of a note at song fraction `time` when the song is at `curP`. */
  function NoteY(time: real, curP: real, boxHeight: real): real
  {
    (boxHeight - PLAYER_LIFT) - SPEED * (time - curP)
  }

  predicate PastBottom(n: Note, curP: real, boxHeight: real)
  {
    NoteY(n.time, curP, boxHeight) > boxHeight + CULL_MARGIN
  }

  /**
   * The screen height cancels out: a note is below the screen exactly when it
   * is more than 1/400 of the song behind the song position.
   */
  lemma PastBottomIff(n: Note, curP: real, boxHeight: real)
    ensures PastBottom(n, curP, boxHeight) <==> n.time < curP - 1.0 / 400.0
  {
  }

  /**
   * The cull loop `while (_active.length && _active[0].y > boxHeight + 100)`:
   * drops notes from the front while the front one is below the screen; each
   * dropped note not yet missed adds one to the Miss count and breaks the combo.
   */
  function CullPastBottom(t: Tally, notes: seq<Note>, curP: real, boxHeight: real): (r: (Tally, seq<Note>))
    requires TallyOk(t)
    ensures TallyOk(r.0)
    ensures |r.1| <= |notes| && r.1 == notes[|notes| - |r.1|..]
    ensures Pending(r.1) <= Pending(notes)
    ensures r.0.rankings[MISS] == t.rankings[MISS] + (Pending(notes) - Pending(r.1))
    ensures forall k :: MISS < k < 5 ==> r.0.rankings[k] == t.rankings[k]
    ensures r.0.score == t.score && r.0.highestCombo == t.highestCombo
    ensures r.0.combo == if Pending(notes) == Pending(r.1) then t.combo else 0
    ensures Sum(r.0.rankings) + Pending(r.1) == Sum(t.rankings) + Pending(notes)
    decreases |notes|
  {
    if |notes| > 0 && PastBottom(notes[0], curP, boxHeight) then
      var n := notes[0];
      var u := if n.missed then t else Bump(t, MISS, 1).(combo := 0);
      var r := CullPastBottom(u, notes[1..], curP, boxHeight);
      assert r.1 == notes[|notes| - |r.1|..];
      r
    else (t, notes)
  }

  /** The number of notes at the front of `notes` that are below the screen. */
  function LeadingBelow(notes: seq<Note>, curP: real, boxHeight: real): (k: nat)
    ensures k <= |notes|
    ensures forall i :: 0 <= i < k ==> PastBottom(notes[i], curP, boxHeight)
    ensures k == |notes| || !PastBottom(notes[k], curP, boxHeight)
    decreases |notes|
  {
    if |notes| > 0 && PastBottom(notes[0], curP, boxHeight) then
      var k := 1 + LeadingBelow(notes[1..], curP, boxHeight);
      assert forall i :: 1 <= i < k ==> notes[i] == notes[1..][i - 1];
      k
    else 0
  }

  /** The loop drops exactly the run of notes below the screen at the front. */
  lemma {:induction false} CullDropsLeading(t: Tally, notes: seq<Note>, curP: real, boxHeight: real)
    requires TallyOk(t)
    ensures |notes| - |CullPastBottom(t, notes, curP, boxHeight).1| == LeadingBelow(notes, curP, boxHeight)
    decreases |notes|
  {
    if |notes| > 0 && PastBottom(notes[0], curP, boxHeight) {
      var u := if notes[0].missed then t else Bump(t, MISS, 1).(combo := 0);
      CullDropsLeading(u, notes[1..], curP, boxHeight);
    }
  }

  /** Every note the loop drops is below the screen. */
  lemma CullDropsBelow(t: Tally, notes: seq<Note>, curP: real, boxHeight: real)
    requires TallyOk(t)
    ensures var r := CullPastBottom(t, notes, curP, boxHeight);
            forall i :: 0 <= i < |notes| - |r.1| ==> PastBottom(notes[i], curP, boxHeight)
  {
    CullDropsLeading(t, notes, curP, boxHeight);
  }

  /** The loop stops at the first note still on the screen: the new front note, if any, is not below it. */
  lemma {:induction false} CullFrontOnScreen(t: Tally, notes: seq<Note>, curP: real, boxHeight: real)
    requires TallyOk(t)
    ensures var r := CullPastBottom(t, notes, curP, boxHeight);
            |r.1| == 0 || !PastBottom(r.1[0], curP, boxHeight)
    decreases |notes|
  {
    if |notes| > 0 && PastBottom(notes[0], curP, boxHeight) {
      var n := notes[0];
      var u := if n.missed then t else Bump(t, MISS, 1).(combo := 0);
      CullFrontOnScreen(u, notes[1..], curP, boxHeight);
    }
  }

  /** On a time-ordered list nothing left on the playfield is below the screen. */
  lemma CullLeavesNothingBelow(t: Tally, notes: seq<Note>, curP: real, boxHeight: real)
    requires TallyOk(t) && Sorted(notes)
    ensures forall i :: 0 <= i < |CullPastBottom(t, notes, curP, boxHeight).1| ==>
              !PastBottom(CullPastBottom(t, notes, curP, boxHeight).1[i], curP, boxHeight)
  {
    var rest := CullPastBottom(t, notes, curP, boxHeight).1;
    CullFrontOnScreen(t, notes, curP, boxHeight);
    SortedSuffix(notes, |notes| - |rest|);
    OnScreenAfterFront(rest, curP, boxHeight);
  }

  /** In a time-ordered list whose front note is on the screen, every note is. */
  lemma OnScreenAfterFront(notes: seq<Note>, curP: real, boxHeight: real)
    requires Sorted(notes) && (|notes| == 0 || !PastBottom(notes[0], curP, boxHeight))
    ensures forall i :: 0 <= i < |notes| ==> !PastBottom(notes[i], curP, boxHeight)
  {
    forall i | 0 <= i < |notes|
      ensures !PastBottom(notes[i], curP, boxHeight)
    {
      SortedPairs(notes, 0, i);
      PastBottomIff(notes[0], curP, boxHeight);
      PastBottomIff(notes[i], curP, boxHeight);
    }
  }

  /**
   * `cullHeld.forEach(releaseHeld)`: the hold bars the presentation reports
   * as scrolled away or used up are dropped from `_held`.
   */
  function ReleaseHolds(held: seq<nat>, offscreen: set<nat>): (r: seq<nat>)
    ensures forall id :: id in r <==> id in held && id !in offscreen
    ensures |r| <= |held|
  {
    if |held| == 0 then []
    else
      var rest := ReleaseHolds(held[1..], offscreen);
      assert held == [held[0]] + held[1..];
      if held[0] in offscreen then rest else [held[0]] + rest
  }

  /**
   * The dancer step: the front beat is consumed once the song has passed it,
   * at most one per frame.
   */
  function DancerStep(beats: seq<real>, curP: real): (r: seq<real>)
    ensures r == beats || (|beats| > 0 && beats[0] < curP && r == beats[1..])
    ensures |beats| > 0 && beats[0] < curP ==> |r| == |beats| - 1
  {
    if |beats| > 0 && curP > beats[0] then beats[1..] else beats
  }
}

=== FILE: playfield.dfy ===
/**
 * The play-time state: the scene's score counters (`_score`, `_combo`,
 * `_highest_combo`, `rankings`) and the note pool manager's bookkeeping
 * (`_active`, `_held`, `_lastHold`, `currentMeasure`), as plain records.
 * Notes and holds that the source links by object reference are linked here
 * by index into the list of every hold created so far.
 */
module Playfield {
  import opened Results
  import opened ChartParser
  import opened Timeline

  /** 0 left, 1 down, 2 up, 3 right. */
  type Lane = l: nat | l < 4

  /** A note on the playfield: its lane, song fraction, flags, and the hold it starts, if any. */
  datatype Note = Note(lane: Lane, time: real, played: bool, missed: bool, hold: Option<nat>)

  /** A hold bar: lane, head time, tail time once its `3` is read, and whether its head was hit. */
  datatype Hold = Hold(lane: Lane, time: real, tail: Option<real>, heldDown: bool)

  /**
   * The pool manager: notes on screen in spawn order, every hold created so
   * far, the holds still drawn (`_held`, as indices), the last hold opened in
   * each lane, and the next measure to spawn.
   */
  datatype Pool = Pool(active: seq<Note>, holds: seq<Hold>, held: seq<nat>, lastHold: map<Lane, nat>, cursor: nat)

  /** The scene's counters; `rankings[k]` counts judgements of rank `k`. */
  datatype Tally = Tally(score: int, combo: nat, highestCombo: nat, rankings: seq<nat>)

  /** Rank indices, also the rank text frames of `setRankText`. */
  const MISS: nat := 0
  const BAD: nat := 1
  const GOOD: nat := 2
  const GREAT: nat := 3
  const PERFECT: nat := 4

  /** The counters as `create` sets them. */
  function NewTally(): Tally
  {
    Tally(0, 0, 0, [0, 0, 0, 0, 0])
  }

  /** The pool manager as `initialize` sets it. */
  function NewPool(): Pool
  {
    Pool([], [], [], map[], 0)
  }

  function Sum(s: seq<nat>): nat
  {
    if |s| == 0 then 0 else s[0] + Sum(s[1..])
  }

  lemma {:induction false} SumBump(s: seq<nat>, k: nat, d: nat)
    requires k < |s|
    ensures Sum(s[k := s[k] + d]) == Sum(s) + d
    decreases |s|
  {
    if k > 0 {
      assert s[k := s[k] + d][1..] == s[1..][k - 1 := s[1..][k - 1] + d];
      SumBump(s[1..], k - 1, d);
    }
  }

  /** Raises `rankings[k]` by `d`. */
  function Bump(t: Tally, k: nat, d: nat): (r: Tally)
    requires k < |t.rankings|
    ensures |r.rankings| == |t.rankings|
    ensures r.rankings[k] == t.rankings[k] + d
    ensures forall j :: 0 <= j < |t.rankings| && j != k ==> r.rankings[j] == t.rankings[j]
    ensures Sum(r.rankings) == Sum(t.rankings) + d
    ensures r.score == t.score && r.combo == t.combo && r.highestCombo == t.highestCombo
  {
    SumBump(t.rankings, k, d);
    t.(rankings := t.rankings[k := t.rankings[k] + d])
  }

  /** Number of notes not yet counted as missed. */
  function Pending(notes: seq<Note>): nat
  {
    if |notes| == 0 then 0 else (if notes[0].missed then 0 else 1) + Pending(notes[1..])
  }

  lemma {:induction false} PendingAppend(a: seq<Note>, b: seq<Note>)
    ensures Pending(a + b) == Pending(a) + Pending(b)
    decreases |a|
  {
    if |a| == 0 {
      assert a + b == b;
    } else {
      assert (a + b)[1..] == a[1..] + b;
      PendingAppend(a[1..], b);
    }
  }

  /** `1` and `2` spawn a note; every other symbol spawns none. */
  predicate SpawnsNote(sym: char)
  {
    sym == '1' || sym == '2'
  }

  /** Notes spawned by the symbols of `row` from position `lane` on. */
  function SymbolNotes(row: string, lane: nat): nat
    requires |row| == 4 && lane <= 4
    decreases 4 - lane
  {
    if lane == 4 then 0 else (if SpawnsNote(row[lane]) then 1 else 0) + SymbolNotes(row, lane + 1)
  }

  /** Notes spawned by one row: rows not exactly four symbols wide spawn none. */
  function RowNotes(row: string): nat
  {
    if |row| == 4 then SymbolNotes(row, 0) else 0
  }

  /** Notes spawned by the rows of a measure from row `i` on. */
  function RowsNotes(rows: Measure, i: nat): nat
    requires i <= |rows|
    decreases |rows| - i
  {
    if i == |rows| then 0 else RowNotes(rows[i]) + RowsNotes(rows, i + 1)
  }

  /** Notes spawned by measures `0 .. m-1`. */
  function NotesBefore(ms: seq<Measure>, m: nat): nat
    requires m <= |ms|
  {
    if m == 0 then 0 else NotesBefore(ms, m - 1) + RowsNotes(ms[m - 1], 0)
  }

  /** The active list is in non-decreasing time order: no note is earlier than the one before it. */
  predicate Sorted(notes: seq<Note>)
  {
    forall i :: 0 < i < |notes| ==> notes[i - 1].time <= notes[i].time
  }

  /** In a time-ordered list every note is at least as late as every earlier one. */
  lemma {:induction false} SortedPairs(notes: seq<Note>, i: nat, j: nat)
    requires Sorted(notes) && i <= j < |notes|
    ensures notes[i].time <= notes[j].time
    decreases j - i
  {
    if i < j {
      SortedPairs(notes, i, j - 1);
    }
  }

  /** Dropping notes from the front keeps the order. */
  lemma SortedSuffix(notes: seq<Note>, d: nat)
    requires Sorted(notes) && d <= |notes|
    ensures Sorted(notes[d..])
  {
    forall i | 0 < i < |notes[d..]|
      ensures notes[d..][i - 1].time <= notes[d..][i].time
    {
      assert notes[d..][i - 1] == notes[d + i - 1] && notes[d..][i] == notes[d + i];
    }
  }

  predicate AllAtMost(notes: seq<Note>, t: real)
  {
    forall i :: 0 <= i < |notes| ==> notes[i].time <= t
  }

  /** Every active note belongs to a measure before the cursor. */
  predicate Ahead(p: Pool, ms: seq<Measure>)
  {
    && 0 < |ms|
    && forall i :: 0 <= i < |p.active| ==> p.active[i].time < p.cursor as real / |ms| as real
  }

  /** Every hold reference points at a hold that exists. */
  predicate Linked(p: Pool)
  {
    && (forall i :: 0 <= i < |p.active| && p.active[i].hold.Some? ==> p.active[i].hold.value < |p.holds|)
    && (forall i :: 0 <= i < |p.held| ==> p.held[i] < |p.holds|)
    && (forall l :: l in p.lastHold ==> p.lastHold[l] < |p.holds|)
  }

  /** Counters are well shaped; the score never goes below zero and the combo never above its record. */
  predicate TallyOk(t: Tally)
  {
    |t.rankings| == 5 && t.combo <= t.highestCombo && t.score >= 0
  }

  /**
   * The play-time invariant. Besides shape and order it states conservation:
   * every note spawned so far is either still pending on screen or counted
   * in exactly one ranking.
   */
  predicate Inv(t: Tally, p: Pool, ms: seq<Measure>)
  {
    && 0 < |ms|
    && p.cursor <= |ms|
    && TallyOk(t)
    && Sorted(p.active)
    && Ahead(p, ms)
    && Linked(p)
    && NotesBefore(ms, p.cursor) == Sum(t.rankings) + Pending(p.active)
  }

  /** The state `create` and `initialize` set up satisfies the invariant. */
  lemma NewInv(ms: seq<Measure>)
    requires 0 < |ms|
    ensures Inv(NewTally(), NewPool(), ms)
  {
    assert Sum([0, 0, 0, 0, 0]) == 0;
  }
}

=== FILE: results.dfy ===
/** Failure-carrying wrappers shared by every module of the model. */
module Results {

  /** A value that may be absent: JavaScript's `undefined`, or a key not present. */
  datatype Option<+T> = None | Some(value: T) {
    function GetOr(default: T): T {
      match this
      case Some(v) => v
      case None => default
    }
  }

  /** The outcome of an operation that can throw in the source. */
  datatype Result<+T, +E> = Success(value: T) | Failure(error: E)
}

=== FILE: session.dfy ===
/**
 * The scene's phase machine: `create` picks the song list or a direct song,
 * the start phase requests the chart, waits more than 60 frames for it and
 * starts the music, the play phase runs until the song clock reaches the
 * song's length, and the end phase shows the results, waits for a
 * confirmation and pops the scene.
 */
module Session {
  import opened Results
  import opened ChartParser
  import opened Timeline
  import opened Playfield
  import opened Judge
  import opened Frame

  /** The start phase takes the chart only once its timer exceeds this. */
  const LOAD_WAIT: nat := 60

  /** The scene's `(_rpgmania_phase, _phase_state)` pairs, in the order they are visited. */
  datatype Stage =
    | SelectWait            // (0, 0): the song list is open
    | LoadRequest           // (0, 1)
    | LoadWait(timer: nat)  // (0, 2), with `waitTimer`
    | StartMusic            // (0, 3)
    | Playing               // (1, 0)
    | ShowResult            // (2, 0)
    | AwaitConfirm          // (2, 1)
    | Leave                 // (2, 2)
    | Gone                  // (4, 2): popped

  /** The source's phase and phase-state numbers for a stage. */
  function Codes(st: Stage): (nat, nat)
  {
    match st
    case SelectWait => (0, 0)
    case LoadRequest => (0, 1)
    case LoadWait(_) => (0, 2)
    case StartMusic => (0, 3)
    case Playing => (1, 0)
    case ShowResult => (2, 0)
    case AwaitConfirm => (2, 1)
    case Leave => (2, 2)
    case Gone => (4, 2)
  }

  /** Position of a stage in the order the scene goes through them. */
  function Order(st: Stage): (k: nat)
    ensures k <= 8
  {
    match st
    case SelectWait => 0
    case LoadRequest => 1
    case LoadWait(_) => 2
    case StartMusic => 3
    case Playing => 4
    case ShowResult => 5
    case AwaitConfirm => 6
    case Leave => 7
    case Gone => 8
  }

  /** The phase/state pair tells the stages apart, except for the wait timer. */
  lemma CodesDistinct(a: Stage, b: Stage)
    ensures Codes(a) == Codes(b) <==> Order(a) == Order(b)
  {
  }

  /** What the plugin command left in `$gameSystem._rpgmania_data`. */
  datatype PluginData = PlaySong(songName: string, difficulty: string) | SongList

  /** The scene: its stage, the song requested, the chart's measures once loaded, and the play state. */
  datatype Scene = Scene(stage: Stage, songName: string, difficulty: string, measures: seq<Measure>, play: Play)

  /** The play state before any chart is loaded. */
  function FreshPlay(): Play
  {
    Play(NewTally(), NewPool(), 0, [])
  }

  /**
   * `create`: without plugin data, or with the song-list flag, the scene opens
   * the song list and waits; otherwise it records the song and difficulty and
   * goes straight to requesting the chart. The counters start at zero.
   */
  function Create(data: Option<PluginData>): (r: Scene)
    ensures r.stage == SelectWait <==> data.None? || data.value.SongList?
    ensures r.stage == LoadRequest <==> data.Some? && data.value.PlaySong?
    ensures data.Some? && data.value.PlaySong? ==>
              r.songName == data.value.songName && r.difficulty == data.value.difficulty
    ensures SceneOk(r)
  {
    if data.None? || data.value.SongList? then Scene(SelectWait, "", "", [], FreshPlay())
    else Scene(LoadRequest, data.value.songName, data.value.difficulty, [], FreshPlay())
  }

  /**
   * The scene invariant: before the chart is taken the play state is fresh;
   * from then on the play-time invariant holds over the chart's measures.
   */
  predicate SceneOk(sc: Scene)
  {
    if Order(sc.stage) < Order(StartMusic) then sc.play == FreshPlay()
    else PlayInv(sc.play, sc.measures)
  }

  /**
   * What the host supplies for one frame: pressed lanes, whether ok/cancel or
   * a touch was triggered, the song clock once the buffer is loaded, the charts
   * loaded so far by song name, the screen height, and the hold bars the
   * presentation drops.
   */
  datatype Env = Env(pressed: Bits, confirm: bool, clock: Option<Clock>, charts: map<string, Chart>,
                     boxHeight: real, offscreen: set<nat>)

  /** Every loaded chart came out of the parser; a loaded buffer has a positive length. */
  predicate EnvOk(env: Env)
  {
    ClockOk(env.clock) && forall k :: k in env.charts ==> WellFiled(env.charts[k])
  }

  /** The start phase fails exactly here: the chart has arrived but lacks the difficulty. */
  predicate MissesDifficulty(sc: Scene, env: Env)
  {
    && sc.stage.LoadWait?
    && sc.stage.timer + 1 > LOAD_WAIT
    && sc.songName in env.charts
    && sc.difficulty !in env.charts[sc.songName].notes
  }

  /**
   * `update_phase`: one step of the phase machine. The end of the start
   * phase takes the chart's measures and the dancer's beats; the play phase
   * itself only draws the HUD; phase 4 has no case.
   */
  function UpdatePhase(sc: Scene, env: Env): (r: Result<Scene, Crash>)
    requires SceneOk(sc) && EnvOk(env)
    ensures r.Failure? <==> MissesDifficulty(sc, env)
    ensures r.Success? ==> SceneOk(r.value) && Order(sc.stage) <= Order(r.value.stage) <= Order(sc.stage) + 1
    ensures r.Success? && Order(sc.stage) != Order(StartMusic) - 1 ==> r.value.play == sc.play
  {
    match sc.stage
    case SelectWait => Success(sc)
    case LoadRequest => Success(sc.(stage := LoadWait(0)))
    case LoadWait(timer) =>
      var t := timer + 1;
      if t > LOAD_WAIT && sc.songName in env.charts then
        var chart := env.charts[sc.songName];
        if sc.difficulty in chart.notes then
          var ms := chart.notes[sc.difficulty].data;
          NewInv(ms);
          Success(sc.(stage := StartMusic, measures := ms, play := sc.play.(beats := BeatsBefore(ms, |ms|))))
        else Failure(MissingDifficulty(sc.difficulty))
      else Success(sc.(stage := LoadWait(t)))
    case StartMusic => Success(sc.(stage := Playing))
    case Playing => Success(sc)
    case ShowResult => Success(sc.(stage := AwaitConfirm))
    case AwaitConfirm => if env.confirm then Success(sc.(stage := Leave)) else Success(sc)
    case Leave => Success(sc.(stage := Gone))
    case Gone => Success(sc)
  }

  /** The stage the pool manager leaves: the end phase once the song has ended, the play phase otherwise. */
  function AfterPlay(ended: bool): (st: Stage)
    ensures st == ShowResult <==> ended
    ensures Order(Playing) <= Order(st) && !st.LoadWait? && st != Gone
  {
    if ended then ShowResult else Playing
  }

  /**
   * One frame of the scene: in the play phase the player sprite and the
   * note pool manager update first (they do nothing in other phases), and
   * the manager's end-of-song switch to the end phase is seen by
   * `update_phase` in the same frame. `g` is the judge's guard:
   * `TruthyTime` runs the program as written.
   */
  function Step(sc: Scene, env: Env, g: Guard): (r: Result<Scene, Crash>)
    requires SceneOk(sc) && EnvOk(env)
    ensures r.Success? ==> SceneOk(r.value)
    ensures r.Success? ==> Order(sc.stage) <= Order(r.value.stage)
    ensures r.Failure? ==> sc.stage.Playing? || sc.stage.LoadWait?
    ensures Order(Playing) < Order(sc.stage) ==> r.Success? && r.value.play == sc.play
    ensures sc.stage == Playing && r.Success? ==>
              (r.value.stage == AwaitConfirm <==> env.clock.Some? && env.clock.value.now >= env.clock.value.duration)
    ensures sc.stage == Playing && r.Success? ==> r.value.stage == AwaitConfirm || r.value.stage == Playing
  {
    if sc.stage == Playing then
      match PlayFrame(sc.play, sc.measures, env.pressed, env.clock, env.boxHeight, env.offscreen, g)
      case Failure(e) => Failure(e)
      case Success(st) =>
        var sc1 := sc.(play := st.play, stage := AfterPlay(st.ended));
        AfterPlayPhase(sc1, env);
        UpdatePhase(sc1, env)
    else UpdatePhase(sc, env)
  }

  predicate AllOk(envs: seq<Env>)
  {
    forall i :: 0 <= i < |envs| ==> EnvOk(envs[i])
  }

  /** A run of frames, stopping at the first crash. */
  function Run(sc: Scene, envs: seq<Env>, g: Guard): (r: Result<Scene, Crash>)
    requires SceneOk(sc) && AllOk(envs)
    ensures r.Success? ==> SceneOk(r.value) && Order(sc.stage) <= Order(r.value.stage)
    decreases |envs|
  {
    if |envs| == 0 then Success(sc)
    else
      match Step(sc, envs[0], g)
      case Failure(e) => Failure(e)
      case Success(s1) => Run(s1, envs[1..], g)
  }

  /** Once the song has ended, the counters are frozen through every later frame. */
  lemma {:induction false} TallyFrozenAfterPlay(sc: Scene, envs: seq<Env>, g: Guard)
    requires SceneOk(sc) && AllOk(envs) && Order(Playing) < Order(sc.stage)
    ensures Run(sc, envs, g).Success? && Run(sc, envs, g).value.play == sc.play
    decreases |envs|
  {
    if |envs| > 0 {
      var s1 := Step(sc, envs[0], g).value;
      TallyFrozenAfterPlay(s1, envs[1..], g);
    }
  }

  /** Frames needed from a start-phase stage until the music can start. */
  function FramesToMusic(st: Stage): nat
  {
    match st
    case LoadRequest => LOAD_WAIT + 2
    case LoadWait(k) => if k < LOAD_WAIT then LOAD_WAIT + 1 - k else 1
    case _ => 0
  }

  /**
   * The chart is never taken early: from the chart request it takes at least
   * 62 frames (one to request, 61 to count the timer past 60) to reach the
   * music.
   */
  lemma {:induction false} LoadTakesFrames(sc: Scene, envs: seq<Env>, g: Guard)
    requires SceneOk(sc) && AllOk(envs)
    requires sc.stage.LoadRequest? || sc.stage.LoadWait?
    requires Run(sc, envs, g).Success? && Order(StartMusic) <= Order(Run(sc, envs, g).value.stage)
    ensures |envs| >= FramesToMusic(sc.stage)
    decreases |envs|
  {
    if |envs| > 0 {
      var s1 := Step(sc, envs[0], g).value;
      assert Run(sc, envs, g) == Run(s1, envs[1..], g);
      LoadStepFrames(sc, envs[0], g);
      if s1.stage.LoadRequest? || s1.stage.LoadWait? {
        LoadTakesFrames(s1, envs[1..], g);
      }
    }
  }

  /** One loading frame brings the music at most one frame closer. */
  lemma LoadStepFrames(sc: Scene, env: Env, g: Guard)
    requires SceneOk(sc) && EnvOk(env) && (sc.stage.LoadRequest? || sc.stage.LoadWait?)
    requires Step(sc, env, g).Success?
    ensures FramesToMusic(sc.stage) <= FramesToMusic(Step(sc, env, g).value.stage) + 1
  {
  }

  /** With the chart present and the difficulty in it, the start phase moves on once the timer passes 60. */
  lemma LoadCompletes(sc: Scene, env: Env, g: Guard)
    requires SceneOk(sc) && EnvOk(env) && sc.stage == LoadWait(LOAD_WAIT)
    requires sc.songName in env.charts && sc.difficulty in env.charts[sc.songName].notes
    ensures Step(sc, env, g).Success?
    ensures Step(sc, env, g).value.stage == StartMusic
    ensures Step(sc, env, g).value.measures == env.charts[sc.songName].notes[sc.difficulty].data
    ensures Step(sc, env, g).value.play.tally == NewTally()
  {
  }

  /** The play phase only draws; the end phase's first frame shows the results and waits for the confirmation. */
  lemma AfterPlayPhase(sc: Scene, env: Env)
    requires SceneOk(sc) && EnvOk(env) && (sc.stage == Playing || sc.stage == ShowResult)
    ensures UpdatePhase(sc, env) == Success(if sc.stage == Playing then sc else sc.(stage := AwaitConfirm))
  {
  }

  /** Without confirmation the result screen stays; with it the scene leaves and is popped the next frame. */
  lemma ConfirmLeaves(sc: Scene, env: Env, next: Env, g: Guard)
    requires SceneOk(sc) && EnvOk(env) && EnvOk(next) && sc.stage == AwaitConfirm
    ensures !env.confirm ==> Step(sc, env, g) == Success(sc)
    ensures env.confirm ==> Step(sc, env, g).Success? && Step(sc, env, g).value.stage == Leave
    ensures env.confirm ==> Step(Step(sc, env, g).value, next, g).Success? && Step(Step(sc, env, g).value, next, g).value.stage == Gone
  {
  }

  /** The scene opened on the song list stays there: picking a song pushes another scene. */
  lemma SongListWaits(sc: Scene, envs: seq<Env>, g: Guard)
    requires SceneOk(sc) && AllOk(envs) && sc.stage == SelectWait
    ensures Run(sc, envs, g) == Success(sc)
    decreases |envs|
  {
    if |envs| > 0 {
      SongListWaits(sc, envs[1..], g);
    }
  }
}

=== FILE: spawner.dfy ===
/**
 * The streaming spawn loop of the note pool manager's `update`: while the
 * measure under the cursor lies within five measures of the song position,
 * every row of it that is exactly four symbols wide is read lane by lane;
 * `1` spawns a tap, `2` spawns a tap that starts a new hold and becomes the
 * lane's last hold, `3` sets the tail of the lane's last hold.
 */
module Spawner {
  import opened Results
  import opened ChartParser
  import opened Timeline
  import opened Playfield

  /**
   * A `3` in a lane that has never had a `2`: the source reads `.tail` of the
   * undefined `_lastHold[pos]` and throws.
   */
  datatype SpawnError = OrphanTail(lane: Lane)

  /** The measures spawned ahead of the song position. */
  const LOOKAHEAD: int := 5

  /** What a spawned note shows of itself: its lane, its song fraction, and whether it starts a hold. */
  datatype Spawn = Spawn(lane: Lane, time: real, head: bool)

  function SpawnOf(n: Note): Spawn
  {
    Spawn(n.lane, n.time, n.hold.Some?)
  }

  /** The notes of a list as spawns, in order. */
  function Spawns(notes: seq<Note>): (r: seq<Spawn>)
    ensures |r| == |notes|
  {
    if |notes| == 0 then [] else [SpawnOf(notes[0])] + Spawns(notes[1..])
  }

  /** Appending one note appends its spawn. */
  lemma {:induction false} SpawnsSnoc(a: seq<Note>, n: Note)
    ensures Spawns(a + [n]) == Spawns(a) + [SpawnOf(n)]
    decreases |a|
  {
    if |a| == 0 {
      assert a + [n] == [n];
    } else {
      assert (a + [n])[1..] == a[1..] + [n];
      SpawnsSnoc(a[1..], n);
    }
  }

  /**
   * The reference reading of a chart, independent of the pool: lanes
   * `lane .. 3` of a four-wide row at song fraction `time` give one spawn per
   * `1` or `2`, in lane order; a `2` starts a hold.
   */
  function LaneSpawns(row: string, lane: nat, time: real): seq<Spawn>
    requires |row| == 4 && lane <= 4
    decreases 4 - lane
  {
    if lane == 4 then [] else SymbolSpawns(row[lane], lane, time) + LaneSpawns(row, lane + 1, time)
  }

  /** The spawn one symbol gives: one for `1` or `2`, none otherwise. */
  function SymbolSpawns(sym: char, lane: Lane, time: real): seq<Spawn>
  {
    if SpawnsNote(sym) then [Spawn(lane, time, sym == '2')] else []
  }

  lemma AppendAssoc(a: seq<Spawn>, b: seq<Spawn>, c: seq<Spawn>)
    ensures (a + b) + c == a + (b + c)
  {
  }

  /** The spawns of one row; a row not four symbols wide gives none. */
  function RowSpawns(row: string, time: real): seq<Spawn>
  {
    if |row| == 4 then LaneSpawns(row, 0, time) else []
  }

  /** The spawns of rows `i ..` of measure `m`, each at its song fraction. */
  function RowsSpawns(ms: seq<Measure>, m: nat, i: nat): seq<Spawn>
    requires m < |ms| && i <= |ms[m]|
    decreases |ms[m]| - i
  {
    if i == |ms[m]| then [] else RowSpawns(ms[m][i], RowTime(m, i, |ms[m]|, |ms|)) + RowsSpawns(ms, m, i + 1)
  }

  /** The spawns of measures `lo .. hi - 1`, in order. */
  function MeasuresSpawns(ms: seq<Measure>, lo: nat, hi: nat): seq<Spawn>
    requires lo <= hi <= |ms|
    decreases hi - lo
  {
    if lo == hi then [] else RowsSpawns(ms, lo, 0) + MeasuresSpawns(ms, lo + 1, hi)
  }

  /**
   * The reference for when spawning fails, independent of the pool: symbols
   * are read in order with `open`, the lanes that have had a `2`; a `3` on a
   * lane outside it is an orphan tail. `None` once an orphan is met, else
   * the lanes open afterwards.
   */
  function SymbolOpen(sym: char, lane: Lane, open: set<Lane>): Option<set<Lane>>
  {
    if sym == '3' && lane !in open then None
    else if sym == '2' then Some(open + {lane})
    else Some(open)
  }

  /** Lanes `lane .. 3` of a four-wide row, read in order. */
  function LanesOpen(row: string, lane: nat, open: set<Lane>): Option<set<Lane>>
    requires |row| == 4 && lane <= 4
    decreases 4 - lane
  {
    if lane == 4 then Some(open)
    else
      match SymbolOpen(row[lane], lane, open)
      case None => None
      case Some(o) => LanesOpen(row, lane + 1, o)
  }

  /** One row; a row not four symbols wide is not read. */
  function RowOpen(row: string, open: set<Lane>): Option<set<Lane>>
  {
    if |row| == 4 then LanesOpen(row, 0, open) else Some(open)
  }

  /** Rows `i ..` of measure `m`, in order. */
  function RowsOpen(ms: seq<Measure>, m: nat, i: nat, open: set<Lane>): Option<set<Lane>>
    requires m < |ms| && i <= |ms[m]|
    decreases |ms[m]| - i
  {
    if i == |ms[m]| then Some(open)
    else
      match RowOpen(ms[m][i], open)
      case None => None
      case Some(o) => RowsOpen(ms, m, i + 1, o)
  }

  /** Measures `lo .. hi - 1`, in order. */
  function MeasuresOpen(ms: seq<Measure>, lo: nat, hi: nat, open: set<Lane>): Option<set<Lane>>
    requires lo <= hi <= |ms|
    decreases hi - lo
  {
    if lo == hi then Some(open)
    else
      match RowsOpen(ms, lo, 0, open)
      case None => None
      case Some(o) => MeasuresOpen(ms, lo + 1, hi, o)
  }

  /** What a spawn step leaves open: `None` when it failed, else the lanes that have a last hold. */
  function OpenAfter(r: Result<Pool, SpawnError>): Option<set<Lane>>
  {
    if r.Success? then Some(r.value.lastHold.Keys) else None
  }

  /**
   * Where the spawn loop with bound `limit` stops when nothing fails: at the
   * bound or the measure count, whichever comes first, and where it started
   * when the bound is not past the cursor.
   */
  function Reach(cursor: nat, count: nat, limit: int): (r: nat)
    requires cursor <= count
    ensures cursor <= r <= count
    ensures r == count || r >= limit
    ensures r == cursor || r <= limit
  {
    if limit <= cursor then cursor else if limit < count then limit else count
  }

  /** One symbol of a four-wide row, at lane `lane` and song fraction `time`. */
  function SpawnSymbol(p: Pool, sym: char, lane: Lane, time: real): (r: Result<Pool, SpawnError>)
    requires Linked(p)
    ensures r.Failure? <==> sym == '3' && lane !in p.lastHold
    ensures OpenAfter(r) == SymbolOpen(sym, lane, p.lastHold.Keys)
    ensures r.Success? ==> Linked(r.value) && r.value.cursor == p.cursor
    ensures r.Success? && SpawnsNote(sym) ==>
              r.value.active == p.active + [Note(lane, time, false, false, if sym == '2' then Some(|p.holds|) else None)]
    ensures r.Success? && !SpawnsNote(sym) ==> r.value.active == p.active
    ensures r.Success? && sym == '2' ==>
              && r.value.holds == p.holds + [Hold(lane, time, None, false)]
              && r.value.held == p.held + [|p.holds|]
              && r.value.lastHold == p.lastHold[lane := |p.holds|]
    ensures r.Success? && sym == '3' ==>
              && |r.value.holds| == |p.holds|
              && r.value.holds[p.lastHold[lane]] == p.holds[p.lastHold[lane]].(tail := Some(time))
              && (forall h :: 0 <= h < |p.holds| && h != p.lastHold[lane] ==> r.value.holds[h] == p.holds[h])
    ensures r.Success? && sym != '2' ==> r.value.held == p.held && r.value.lastHold == p.lastHold
    ensures r.Success? && sym != '2' && sym != '3' ==> r.value.holds == p.holds
  {
    if sym == '1' then
      Success(p.(active := p.active + [Note(lane, time, false, false, None)]))
    else if sym == '2' then
      var id := |p.holds|;
      var q := p.(active := p.active + [Note(lane, time, false, false, Some(id))],
                  holds := p.holds + [Hold(lane, time, None, false)],
                  held := p.held + [id],
                  lastHold := p.lastHold[lane := id]);
      assert Linked(q) by {
        assert forall i :: 0 <= i < |p.active| ==> q.active[i] == p.active[i];
        assert forall i :: 0 <= i < |p.held| ==> q.held[i] == p.held[i];
      }
      assert q.lastHold.Keys == p.lastHold.Keys + {lane};
      Success(q)
    else if sym == '3' then
      if lane !in p.lastHold then Failure(OrphanTail(lane))
      else
        var h := p.lastHold[lane];
        Success(p.(holds := p.holds[h := p.holds[h].(tail := Some(time))]))
    else Success(p)
  }

  /** Lanes `lane .. 3` of a four-wide row. */
  function SpawnLanes(p: Pool, row: string, lane: nat, time: real): (r: Result<Pool, SpawnError>)
    requires |row| == 4 && lane <= 4 && Linked(p)
    ensures OpenAfter(r) == LanesOpen(row, lane, p.lastHold.Keys)
    ensures r.Success? ==> Linked(r.value) && r.value.cursor == p.cursor
    ensures r.Success? ==> p.active <= r.value.active
    ensures r.Success? ==> Pending(r.value.active) == Pending(p.active) + SymbolNotes(row, lane)
    ensures r.Success? && Sorted(p.active) && AllAtMost(p.active, time) ==>
              Sorted(r.value.active) && AllAtMost(r.value.active, time)
    decreases 4 - lane
  {
    if lane == 4 then Success(p)
    else
      match SpawnSymbol(p, row[lane], lane, time)
      case Failure(e) => Failure(e)
      case Success(q) =>
        assert Pending(q.active) == Pending(p.active) + (if SpawnsNote(row[lane]) then 1 else 0) by {
          if SpawnsNote(row[lane]) {
            PendingAppend(p.active, q.active[|p.active|..]);
            assert q.active == p.active + q.active[|p.active|..];
          }
        }
        assert Sorted(p.active) && AllAtMost(p.active, time) ==> Sorted(q.active) && AllAtMost(q.active, time);
        var r := SpawnLanes(q, row, lane + 1, time);
        r
  }

  /** Rows `i ..` of measure `m`: each four-wide row at its song fraction, other rows skipped. */
  function SpawnRows(p: Pool, ms: seq<Measure>, m: nat, i: nat): (r: Result<Pool, SpawnError>)
    requires m < |ms| && i <= |ms[m]| && Linked(p)
    ensures OpenAfter(r) == RowsOpen(ms, m, i, p.lastHold.Keys)
    ensures r.Success? ==> Linked(r.value) && r.value.cursor == p.cursor
    ensures r.Success? ==> p.active <= r.value.active
    ensures r.Success? ==> Pending(r.value.active) == Pending(p.active) + RowsNotes(ms[m], i)
    decreases |ms[m]| - i
  {
    if i == |ms[m]| then Success(p)
    else
      match SpawnRow(p, ms[m][i], RowTime(m, i, |ms[m]|, |ms|))
      case Failure(e) => Failure(e)
      case Success(q) => SpawnRows(q, ms, m, i + 1)
  }

  /** Rows are spawned in time order, each no later than the measure's last row. */
  lemma {:induction false} SpawnRowsOrder(p: Pool, ms: seq<Measure>, m: nat, i: nat)
    requires m < |ms| && i < |ms[m]| && Linked(p)
    ensures SpawnRows(p, ms, m, i).Success? && Sorted(p.active) && AllAtMost(p.active, RowTime(m, i, |ms[m]|, |ms|)) ==>
              && Sorted(SpawnRows(p, ms, m, i).value.active)
              && AllAtMost(SpawnRows(p, ms, m, i).value.active, RowTime(m, |ms[m]| - 1, |ms[m]|, |ms|))
    decreases |ms[m]| - i
  {
    var n := |ms[m]|;
    var time := RowTime(m, i, n, |ms|);
    var q := SpawnRow(p, ms[m][i], time);
    if q.Success? && i + 1 < n {
      RowTimeIncreasing(m, i, i + 1, n, |ms|);
      AllAtMostWeaker(q.value.active, time, RowTime(m, i + 1, n, |ms|));
      SpawnRowsOrder(q.value, ms, m, i + 1);
    }
  }

  lemma AllAtMostWeaker(notes: seq<Note>, t: real, u: real)
    requires t <= u
    ensures AllAtMost(notes, t) ==> AllAtMost(notes, u)
  {
  }

  /** One row at song fraction `time`: a row not exactly four symbols wide spawns nothing. */
  function SpawnRow(p: Pool, row: string, time: real): (r: Result<Pool, SpawnError>)
    requires Linked(p)
    ensures |row| != 4 ==> r == Success(p)
    ensures OpenAfter(r) == RowOpen(row, p.lastHold.Keys)
    ensures r.Success? ==> Linked(r.value) && r.value.cursor == p.cursor
    ensures r.Success? ==> p.active <= r.value.active
    ensures r.Success? ==> Pending(r.value.active) == Pending(p.active) + RowNotes(row)
    ensures r.Success? && Sorted(p.active) && AllAtMost(p.active, time) ==>
              Sorted(r.value.active) && AllAtMost(r.value.active, time)
  {
    if |row| == 4 then SpawnLanes(p, row, 0, time) else Success(p)
  }

  /** One whole measure, the body of the spawn loop; advances the cursor past it. */
  function SpawnMeasure(p: Pool, ms: seq<Measure>): (r: Result<Pool, SpawnError>)
    requires p.cursor < |ms| && Linked(p)
    ensures OpenAfter(r) == RowsOpen(ms, p.cursor, 0, p.lastHold.Keys)
    ensures r.Success? ==> Linked(r.value) && r.value.cursor == p.cursor + 1
    ensures r.Success? ==> p.active <= r.value.active
    ensures r.Success? ==> Pending(r.value.active) == Pending(p.active) + RowsNotes(ms[p.cursor], 0)
    ensures r.Success? && Sorted(p.active) && Ahead(p, ms) ==> Sorted(r.value.active) && Ahead(r.value, ms)
  {
    match SpawnRows(p, ms, p.cursor, 0)
    case Failure(e) => Failure(e)
    case Success(q) =>
      if |ms[p.cursor]| > 0 then
        SpawnRowsOrder(p, ms, p.cursor, 0);
        MeasureOrder(p, q, ms);
        Success(q.(cursor := p.cursor + 1))
      else
        MeasureOrder(p, q, ms);
        Success(q.(cursor := p.cursor + 1))
  }

  /**
   * The notes a measure appends come no earlier than those already active
   * and before the next measure starts.
   */
  lemma MeasureOrder(p: Pool, q: Pool, ms: seq<Measure>)
    requires p.cursor < |ms|
    requires |ms[p.cursor]| == 0 ==> q.active == p.active
    requires |ms[p.cursor]| > 0 && Sorted(p.active) && AllAtMost(p.active, RowTime(p.cursor, 0, |ms[p.cursor]|, |ms|)) ==>
               Sorted(q.active) && AllAtMost(q.active, RowTime(p.cursor, |ms[p.cursor]| - 1, |ms[p.cursor]|, |ms|))
    ensures Sorted(p.active) && Ahead(p, ms) ==> Sorted(q.active) && Ahead(q.(cursor := p.cursor + 1), ms)
  {
    DivStrict(p.cursor as real, (p.cursor + 1) as real, |ms| as real);
  }

  lemma PrefixTrans(a: seq<Note>, b: seq<Note>, c: seq<Note>)
    requires a <= b && b <= c
    ensures a <= c
  {
    assert c[..|a|] == b[..|a|];
  }

  /**
   * The spawn loop with its bound `limit = ceil(curMes + 5)` evaluated once
   * (`curMes` does not change inside the loop).
   */
  function SpawnUpTo(p: Pool, ms: seq<Measure>, limit: int): (r: Result<Pool, SpawnError>)
    requires p.cursor <= |ms| && Linked(p)
    ensures r.Success? ==> p.cursor <= r.value.cursor <= |ms|
    ensures r.Success? ==> r.value.cursor == Reach(p.cursor, |ms|, limit)
    ensures r.Success? ==> Linked(r.value)
    decreases |ms| - p.cursor
  {
    if limit > p.cursor && p.cursor < |ms| then
      match SpawnMeasure(p, ms)
      case Failure(e) => Failure(e)
      case Success(q) => SpawnUpTo(q, ms, limit)
    else Success(p)
  }

  /** The loop only appends, and appends exactly the notes of the measures it reads. */
  lemma {:induction false} SpawnUpToNotes(p: Pool, ms: seq<Measure>, limit: int)
    requires p.cursor <= |ms| && Linked(p)
    ensures SpawnUpTo(p, ms, limit).Success? ==> p.active <= SpawnUpTo(p, ms, limit).value.active
    ensures SpawnUpTo(p, ms, limit).Success? ==>
              Pending(SpawnUpTo(p, ms, limit).value.active) + NotesBefore(ms, p.cursor)
              == Pending(p.active) + NotesBefore(ms, SpawnUpTo(p, ms, limit).value.cursor)
    decreases |ms| - p.cursor
  {
    if limit > p.cursor && p.cursor < |ms| {
      var q := SpawnMeasure(p, ms);
      if q.Success? {
        assert NotesBefore(ms, q.value.cursor) == NotesBefore(ms, p.cursor) + RowsNotes(ms[p.cursor], 0);
        SpawnUpToNotes(q.value, ms, limit);
        var r := SpawnUpTo(q.value, ms, limit);
        if r.Success? {
          PrefixTrans(p.active, q.value.active, r.value.active);
        }
      }
    }
  }

  /** One symbol appends exactly its reference spawn. */
  lemma SpawnSymbolContents(p: Pool, sym: char, lane: Lane, time: real)
    requires Linked(p)
    ensures var r := SpawnSymbol(p, sym, lane, time);
            r.Success? ==> Spawns(r.value.active) == Spawns(p.active) + SymbolSpawns(sym, lane, time)
  {
    var r := SpawnSymbol(p, sym, lane, time);
    if r.Success? {
      if SpawnsNote(sym) {
        SpawnsSnoc(p.active, Note(lane, time, false, false, if sym == '2' then Some(|p.holds|) else None));
      } else {
        assert Spawns(p.active) + [] == Spawns(p.active);
      }
    }
  }

  /** `SpawnLanes` after a symbol that succeeded goes on with the next lane. */
  lemma SpawnLanesStep(p: Pool, row: string, lane: nat, time: real)
    requires |row| == 4 && lane < 4 && Linked(p)
    ensures var q := SpawnSymbol(p, row[lane], lane, time);
            q.Success? ==> SpawnLanes(p, row, lane, time) == SpawnLanes(q.value, row, lane + 1, time)
  {
  }

  /** A row's lanes append exactly the reference spawns of those lanes. */
  lemma {:induction false} SpawnLanesContents(p: Pool, row: string, lane: nat, time: real)
    requires |row| == 4 && lane <= 4 && Linked(p)
    ensures var r := SpawnLanes(p, row, lane, time);
            r.Success? ==> Spawns(r.value.active) == Spawns(p.active) + LaneSpawns(row, lane, time)
    decreases 4 - lane
  {
    if lane < 4 {
      var q := SpawnSymbol(p, row[lane], lane, time);
      if q.Success? {
        SpawnSymbolContents(p, row[lane], lane, time);
        SpawnLanesStep(p, row, lane, time);
        SpawnLanesContents(q.value, row, lane + 1, time);
        AppendAssoc(Spawns(p.active), SymbolSpawns(row[lane], lane, time), LaneSpawns(row, lane + 1, time));
      }
    } else {
      assert Spawns(p.active) + [] == Spawns(p.active);
    }
  }

  /** One row appends exactly its reference spawns. */
  lemma SpawnRowContents(p: Pool, row: string, time: real)
    requires Linked(p)
    ensures var r := SpawnRow(p, row, time);
            r.Success? ==> Spawns(r.value.active) == Spawns(p.active) + RowSpawns(row, time)
  {
    if |row| == 4 {
      SpawnLanesContents(p, row, 0, time);
    } else {
      assert Spawns(p.active) + [] == Spawns(p.active);
    }
  }

  /** `SpawnRows` after a row that succeeded goes on with the next row. */
  lemma SpawnRowsStep(p: Pool, ms: seq<Measure>, m: nat, i: nat)
    requires m < |ms| && i < |ms[m]| && Linked(p)
    ensures var q := SpawnRow(p, ms[m][i], RowTime(m, i, |ms[m]|, |ms|));
            q.Success? ==> SpawnRows(p, ms, m, i) == SpawnRows(q.value, ms, m, i + 1)
  {
  }

  /** The rows of a measure append exactly their reference spawns. */
  lemma {:induction false} SpawnRowsContents(p: Pool, ms: seq<Measure>, m: nat, i: nat)
    requires m < |ms| && i <= |ms[m]| && Linked(p)
    ensures var r := SpawnRows(p, ms, m, i);
            r.Success? ==> Spawns(r.value.active) == Spawns(p.active) + RowsSpawns(ms, m, i)
    decreases |ms[m]| - i, 1
  {
    if i < |ms[m]| {
      SpawnRowsContentsNext(p, ms, m, i);
    } else {
      assert Spawns(p.active) + [] == Spawns(p.active);
    }
  }

  /** One row, then the rest of the measure. */
  lemma {:induction false} SpawnRowsContentsNext(p: Pool, ms: seq<Measure>, m: nat, i: nat)
    requires m < |ms| && i < |ms[m]| && Linked(p)
    ensures var r := SpawnRows(p, ms, m, i);
            r.Success? ==> Spawns(r.value.active) == Spawns(p.active) + RowsSpawns(ms, m, i)
    decreases |ms[m]| - i, 0
  {
    var time := RowTime(m, i, |ms[m]|, |ms|);
    var q := SpawnRow(p, ms[m][i], time);
    if q.Success? {
      var before, mine, rest := Spawns(p.active), RowSpawns(ms[m][i], time), RowsSpawns(ms, m, i + 1);
      SpawnRowContents(p, ms[m][i], time);
      SpawnRowsStep(p, ms, m, i);
      assert RowsSpawns(ms, m, i) == mine + rest;
      SpawnRowsContents(q.value, ms, m, i + 1);
      AppendAssoc(before, mine, rest);
    }
  }

  /** One measure appends exactly its reference spawns. */
  lemma SpawnMeasureContents(p: Pool, ms: seq<Measure>)
    requires p.cursor < |ms| && Linked(p)
    ensures var r := SpawnMeasure(p, ms);
            r.Success? ==> Spawns(r.value.active) == Spawns(p.active) + RowsSpawns(ms, p.cursor, 0)
  {
    SpawnRowsContents(p, ms, p.cursor, 0);
  }

  /** `SpawnUpTo` after a measure that succeeded goes on from the next one. */
  lemma SpawnUpToStep(p: Pool, ms: seq<Measure>, limit: int)
    requires p.cursor < |ms| && limit > p.cursor && Linked(p)
    ensures var q := SpawnMeasure(p, ms);
            q.Success? ==> SpawnUpTo(p, ms, limit) == SpawnUpTo(q.value, ms, limit)
  {
  }

  /**
   * The loop fails exactly when the measures up to where it would stop hold
   * an orphan tail, and otherwise leaves open the lanes the reference does.
   */
  lemma {:induction false} SpawnUpToOpen(p: Pool, ms: seq<Measure>, limit: int)
    requires p.cursor <= |ms| && Linked(p)
    ensures OpenAfter(SpawnUpTo(p, ms, limit)) == MeasuresOpen(ms, p.cursor, Reach(p.cursor, |ms|, limit), p.lastHold.Keys)
    decreases |ms| - p.cursor
  {
    if limit > p.cursor && p.cursor < |ms| {
      var q := SpawnMeasure(p, ms);
      if q.Success? {
        SpawnUpToOpen(q.value, ms, limit);
      }
    }
  }

  /** The loop appends exactly the reference spawns of the measures it reads, in order. */
  lemma {:induction false} SpawnUpToContents(p: Pool, ms: seq<Measure>, limit: int)
    requires p.cursor <= |ms| && Linked(p)
    ensures var r := SpawnUpTo(p, ms, limit);
            r.Success? ==> Spawns(r.value.active) == Spawns(p.active) + MeasuresSpawns(ms, p.cursor, r.value.cursor)
    decreases |ms| - p.cursor, 1
  {
    if limit > p.cursor && p.cursor < |ms| {
      SpawnUpToContentsNext(p, ms, limit);
    } else {
      assert Spawns(p.active) + [] == Spawns(p.active);
    }
  }

  /** One measure, then the rest of the loop. */
  lemma {:induction false} SpawnUpToContentsNext(p: Pool, ms: seq<Measure>, limit: int)
    requires p.cursor < |ms| && limit > p.cursor && Linked(p)
    ensures var r := SpawnUpTo(p, ms, limit);
            r.Success? ==> Spawns(r.value.active) == Spawns(p.active) + MeasuresSpawns(ms, p.cursor, r.value.cursor)
    decreases |ms| - p.cursor, 0
  {
    var q := SpawnMeasure(p, ms);
    SpawnMeasureContents(p, ms);
    if q.Success? {
      SpawnUpToContents(q.value, ms, limit);
      var r := SpawnUpTo(q.value, ms, limit);
      SpawnUpToStep(p, ms, limit);
      if r.Success? {
        MeasuresSpawnsCons(ms, p.cursor, q.value.cursor, r.value.cursor, Spawns(p.active), Spawns(q.value.active), Spawns(r.value.active));
      }
    }
  }

  /** The spawns of one measure followed by those of the next ones are those of them all. */
  lemma MeasuresSpawnsCons(ms: seq<Measure>, lo: nat, mid: nat, hi: nat, a: seq<Spawn>, b: seq<Spawn>, c: seq<Spawn>)
    requires mid == lo + 1 && mid <= hi <= |ms|
    requires b == a + RowsSpawns(ms, lo, 0)
    requires c == b + MeasuresSpawns(ms, mid, hi)
    ensures c == a + MeasuresSpawns(ms, lo, hi)
  {
    AppendAssoc(a, RowsSpawns(ms, lo, 0), MeasuresSpawns(ms, mid, hi));
  }

  /** The loop keeps the active notes in time order and before the cursor's measure. */
  lemma {:induction false} SpawnUpToOrder(p: Pool, ms: seq<Measure>, limit: int)
    requires p.cursor <= |ms| && Linked(p)
    ensures SpawnUpTo(p, ms, limit).Success? && Sorted(p.active) && Ahead(p, ms) ==>
              Sorted(SpawnUpTo(p, ms, limit).value.active) && Ahead(SpawnUpTo(p, ms, limit).value, ms)
    decreases |ms| - p.cursor
  {
    if limit > p.cursor && p.cursor < |ms| {
      var q := SpawnMeasure(p, ms);
      if q.Success? {
        SpawnUpToOrder(q.value, ms, limit);
      }
    }
  }

  /**
   * The spawn loop: `while (ceil(curMes + 5) > cursor && cursor < measureCount)`.
   * The cursor never moves back and never passes the measure count; on exit it
   * is at the count or past `curMes + 5`, and it only moved past measures that
   * met the guard, so each measure is read once. Notes are only appended, in
   * time order after those already active, and the notes appended are
   * exactly those the newly read measures hold. It fails exactly when the
   * measures up to where it would stop hold a `3` on a lane with no hold
   * opened before it, counting the lanes already open.
   */
  function SpawnAhead(p: Pool, ms: seq<Measure>, curMes: real): (r: Result<Pool, SpawnError>)
    requires p.cursor <= |ms| && Linked(p)
    ensures OpenAfter(r) == MeasuresOpen(ms, p.cursor, AheadReach(p, ms, curMes), p.lastHold.Keys)
    ensures r.Success? ==> r.value.cursor == AheadReach(p, ms, curMes)
    ensures r.Success? ==> p.cursor <= r.value.cursor <= |ms|
    ensures r.Success? ==> Linked(r.value)
    ensures r.Success? ==> p.active <= r.value.active
    ensures r.Success? ==>
              Pending(r.value.active) + NotesBefore(ms, p.cursor) == Pending(p.active) + NotesBefore(ms, r.value.cursor)
    ensures r.Success? ==> Spawns(r.value.active) == Spawns(p.active) + MeasuresSpawns(ms, p.cursor, r.value.cursor)
    ensures r.Success? && Sorted(p.active) && Ahead(p, ms) ==> Sorted(r.value.active) && Ahead(r.value, ms)
  {
    var limit := Ceil(curMes + LOOKAHEAD as real);
    SpawnUpToOpen(p, ms, limit);
    SpawnUpToNotes(p, ms, limit);
    SpawnUpToOrder(p, ms, limit);
    SpawnUpToContents(p, ms, limit);
    SpawnUpTo(p, ms, limit)
  }

  /** Where the spawn loop stops at measure position `curMes` when nothing fails. */
  function AheadReach(p: Pool, ms: seq<Measure>, curMes: real): nat
    requires p.cursor <= |ms|
  {
    Reach(p.cursor, |ms|, Ceil(curMes + LOOKAHEAD as real))
  }

  /**
   * The measures the spawn loop reads at measure position `curMes` hold no
   * `3` on a lane without a hold opened before it.
   */
  predicate SpawnsWithoutOrphan(p: Pool, ms: seq<Measure>, curMes: real)
    requires p.cursor <= |ms|
  {
    MeasuresOpen(ms, p.cursor, AheadReach(p, ms, curMes), p.lastHold.Keys).Some?
  }

  /**
   * How far `SpawnAhead` reads: without an orphan tail it succeeds, and on
   * exit the cursor is at the measure count or has reached `curMes + 5`,
   * and the last measure read was still short of it.
   */
  lemma SpawnAheadReach(p: Pool, ms: seq<Measure>, curMes: real)
    requires p.cursor <= |ms| && Linked(p)
    ensures SpawnAhead(p, ms, curMes).Success? <==> SpawnsWithoutOrphan(p, ms, curMes)
    ensures var r := SpawnAhead(p, ms, curMes);
            r.Success? ==> r.value.cursor == |ms| || curMes + LOOKAHEAD as real <= r.value.cursor as real
    ensures var r := SpawnAhead(p, ms, curMes);
            r.Success? ==> r.value.cursor == p.cursor || (r.value.cursor - 1) as real < curMes + LOOKAHEAD as real
  {
  }
}

=== FILE: timeline.dfy ===
/**
 * Mapping the measure/row grid of a note chart onto the song: row `i` of
 * measure `m`, which holds `n` rows, in a chart of `M` measures sits at the
 * song fraction `(m + i/n)/M`. The same formula places the dancer's beats
 * (`setupDanceInfo`) and the spawned notes (the pool manager's spawn loop).
 */
module Timeline {
  import opened ChartParser

  /** Song fraction of row `i` of measure `m` holding `n` rows, in a chart of `count` measures. */
  function RowTime(m: nat, i: nat, n: nat, count: nat): (t: real)
    requires i < n && m < count
    ensures 0.0 <= t < 1.0
    ensures m as real / count as real <= t < (m + 1) as real / count as real
    ensures i == 0 ==> t == m as real / count as real
  {
    var frac := i as real / n as real;
    assert 0.0 <= frac < 1.0 by {
      DivBelow(i as real, n as real);
    }
    var c := count as real;
    var t := (m as real + frac) / c;
    DivOrder(m as real, m as real + frac, c);
    DivStrict(m as real + frac, (m + 1) as real, c);
    DivOrder(0.0, m as real, c);
    DivOrder((m + 1) as real, c, c);
    t
  }

  lemma DivBelow(a: real, b: real)
    requires 0.0 <= a < b
    ensures 0.0 <= a / b < 1.0
  {
  }

  lemma DivOrder(a: real, b: real, c: real)
    requires a <= b && c > 0.0
    ensures a / c <= b / c
  {
    assert b / c - a / c == (b - a) / c;
  }

  lemma DivStrict(a: real, b: real, c: real)
    requires a < b && c > 0.0
    ensures a / c < b / c
  {
    assert b / c - a / c == (b - a) / c;
  }

  /** Later rows of one measure come strictly later in the song. */
  lemma RowTimeIncreasing(m: nat, i: nat, j: nat, n: nat, count: nat)
    requires i < j < n && m < count
    ensures RowTime(m, i, n, count) < RowTime(m, j, n, count)
  {
    var c := count as real;
    var x := m as real + i as real / n as real;
    var y := m as real + j as real / n as real;
    assert i as real / n as real < j as real / n as real;
    assert y / c - x / c == (y - x) / c;
    assert RowTime(m, i, n, count) == x / c;
    assert RowTime(m, j, n, count) == y / c;
  }

  /** `Math.ceil`. */
  function Ceil(x: real): (r: int)
    ensures r as real - 1.0 < x <= r as real
  {
    if x.Floor as real == x then x.Floor else x.Floor + 1
  }

  /** The times of all rows of measure `m`, in row order. */
  function MeasureBeats(ms: seq<Measure>, m: nat): (b: seq<real>)
    requires m < |ms|
    ensures |b| == |ms[m]|
  {
    seq(|ms[m]|, i requires 0 <= i < |ms[m]| => RowTime(m, i, |ms[m]|, |ms|))
  }

  /** The times of every row of measures `0 .. m-1`, measure by measure. */
  function BeatsBefore(ms: seq<Measure>, m: nat): seq<real>
    requires m <= |ms|
  {
    if m == 0 then [] else BeatsBefore(ms, m - 1) + MeasureBeats(ms, m - 1)
  }

  /** Number of rows in measures `0 .. m-1`. */
  function RowsBefore(ms: seq<Measure>, m: nat): nat
    requires m <= |ms|
  {
    if m == 0 then 0 else RowsBefore(ms, m - 1) + |ms[m - 1]|
  }

  predicate StrictlyIncreasing(s: seq<real>)
  {
    forall i, j :: 0 <= i < j < |s| ==> s[i] < s[j]
  }

  /**
   * The beats of the first `m` measures are strictly increasing, each lies in
   * `[0, 1)`, and all of them come before measure `m` starts.
   */
  lemma {:induction false} BeatsBeforeOrdered(ms: seq<Measure>, m: nat)
    requires m <= |ms|
    ensures |BeatsBefore(ms, m)| == RowsBefore(ms, m)
    ensures StrictlyIncreasing(BeatsBefore(ms, m))
    ensures forall k :: 0 <= k < |BeatsBefore(ms, m)| ==>
              0.0 <= BeatsBefore(ms, m)[k] < 1.0 &&
              BeatsBefore(ms, m)[k] < m as real / |ms| as real
    decreases m
  {
    if m > 0 {
      BeatsBeforeOrdered(ms, m - 1);
      var a := BeatsBefore(ms, m - 1);
      var b := MeasureBeats(ms, m - 1);
      var s := a + b;
      assert ((m - 1) as real) / |ms| as real <= (m as real) / |ms| as real;
      forall i, j | 0 <= i < j < |s|
        ensures s[i] < s[j]
      {
        if j < |a| {
        } else if i >= |a| {
          RowTimeIncreasing(m - 1, i - |a|, j - |a|, |ms[m - 1]|, |ms|);
        } else {
          assert s[j] == RowTime(m - 1, j - |a|, |ms[m - 1]|, |ms|);
        }
      }
    }
  }

  /**
   * `setupDanceInfo`: walks every row of every measure and pushes its song
   * fraction. The list holds one beat per row, each in `[0, 1)`, and is
   * strictly increasing, so the dancer consumes beats in chart order.
   */
  method SetupDanceInfo(ms: seq<Measure>) returns (beats: seq<real>)
    ensures beats == BeatsBefore(ms, |ms|)
    ensures |beats| == RowsBefore(ms, |ms|)
    ensures StrictlyIncreasing(beats)
    ensures forall k :: 0 <= k < |beats| ==> 0.0 <= beats[k] < 1.0
  {
    beats := [];
    var i := 0;
    while i < |ms|
      invariant 0 <= i <= |ms|
      invariant beats == BeatsBefore(ms, i)
    {
      var n := |ms[i]|;
      var j := 0;
      while j < n
        invariant 0 <= j <= n
        invariant beats == BeatsBefore(ms, i) + MeasureBeats(ms, i)[..j]
      {
        var time := (i as real + j as real / n as real) / |ms| as real;
        beats := beats + [time];
        j := j + 1;
      }
      assert MeasureBeats(ms, i)[..n] == MeasureBeats(ms, i);
      i := i + 1;
    }
    BeatsBeforeOrdered(ms, |ms|);
  }
}
